=== FILE: README.md ===
# OLEDDisplay in Dafny

A model of the core of `OLEDDisplay`, a Java driver for 128x64 monochrome
SSD1306 and SH1106 OLED panels on an I2C bus. The driver keeps a
1024-byte framebuffer with one bit per pixel. Each byte holds eight
vertically stacked pixels of one column of one 8-row page. Callers draw in
logical coordinates, which the fixed mounting rotation maps onto the native
panel. `update` copies the framebuffer to the controller in one of two
addressing protocols.

The model is functional. The framebuffer is a `seq<bv8>` of length 1024.
Every drawing operation is a pure function from buffer to buffer. The bus
is a trace of events: single-byte register writes and raw multi-byte writes.

| module | file | models |
|---|---|---|
| `Panel` | `panel.dfy` | panel constants, Java's truncating `/`, `Rotation`, `getWidth`/`getHeight`, the four remap formulas of `setPixel` |
| `FrameBuffer` | `framebuffer.dfy` | `imageBuffer`, `clear`, `updateImageBuffer` including its index-only guard |
| `Drawing` | `drawing.dfy` | `setPixel`, `clearRect`, and the bit-unpack loop of `drawImage`, both as written and corrected (see Findings) |
| `Text` | `text.dfy` | cursor and bounds logic of `drawString` and `drawStringCentered` over UTF-16 code units; font metrics are parameters |
| `Commands` | `commands.dfy` | the controller command set the driver uses, with an encoder and a decoder |
| `Protocol` | `protocol.dfy` | `init`, `writeBytes`, and `update` in horizontal and page addressing modes, as event traces |
| `Display` | `display.dfy` | the constructor (clear, then `init`), `update`, and `shutdown` (clear, `update`, close) over a bus that can fail |
| `Wrappers` | `wrappers.dfy` | `Option` |

Some behaviour of the code is easy to misread, and the model keeps it as
written:

- **Off-panel writes.** Writes outside the panel are not all dropped. The
  code guards only the linear index `x + (y / 8) * 128`. So columns 128
  and up spill into the next page, and rows -7..-1 truncate to page 0
  (`RightEdgeSpills`, `NegativeRowAliases`).
- **Quarter-turn formula.** The 90 degree map subtracts from `getWidth()`,
  which is 64 under a quarter turn, not from the native width 128. `Remap`
  does the same.
- **Repeated shutdown.** `shutdown` has no run-once guard. After a failed
  update it clears and tries again. After a completed one the device is
  closed, and the second call reaches nothing (`ShutdownRepeats`).
- **Page-mode column.** Page-mode `update` sends column low nibble `0x02`,
  not 0 (the SH1106's two-column offset).
- **Text is UTF-16.** `drawString` loops over `toCharArray()` and
  `drawStringCentered` measures `length()`. Both count UTF-16 code units,
  so a character outside the Basic Multilingual Plane takes two cells and
  two glyph requests (`SurrogatePairCentred`).

Java's `y / 8` truncates toward zero and is modelled by `JDiv`. Java's
`y & 7` equals Dafny's Euclidean `y % 8` for every integer.

## Model

| member | source | states |
|---|---|---|
| Panel.JDiv | src/main/java/de/pi3g/pi/oled/OLEDDisplay.java:340 | the quotient truncates toward zero: the remainder has the sign of the dividend and is smaller than the divisor |
| Panel.PagesTileBuffer | src/main/java/de/pi3g/pi/oled/OLEDDisplay.java:100-103 | `MAX_INDEX` is 8 pages of 128 bytes, i.e. 1024 |
| Panel.Remap | src/main/java/de/pi3g/pi/oled/OLEDDisplay.java:321-337 | the rotation map has an inverse, and carries exactly the logical frame onto the panel |
| Panel.RemapOnto | src/main/java/de/pi3g/pi/oled/OLEDDisplay.java:321-337 | every panel pixel is the image of a logical point inside the frame |
| Panel.RemapInjective | src/main/java/de/pi3g/pi/oled/OLEDDisplay.java:321-337 | distinct logical points never land on the same physical point |
| Panel.HalfTurnInvolution | src/main/java/de/pi3g/pi/oled/OLEDDisplay.java:330-332 | the 180 degree map applied twice is the identity |
| Panel.Width | src/main/java/de/pi3g/pi/oled/OLEDDisplay.java:257-267 | `getWidth()`: no contract of its own; `FrameDimensions` states that it is the native height exactly under a quarter turn and the native width otherwise |
| Panel.Height | src/main/java/de/pi3g/pi/oled/OLEDDisplay.java:269-280 | `getHeight()`: no contract of its own; `FrameDimensions` states the swap, and `RemapOnto` that width and height bound exactly the points that reach the panel |
| Panel.FrameDimensions | src/main/java/de/pi3g/pi/oled/OLEDDisplay.java:256-280 | the logical size is (64, 128) exactly for 90 and 270 degrees and (128, 64) otherwise, so it always covers 128 * 64 pixels |
| FrameBuffer.WithBit | src/main/java/de/pi3g/pi/oled/OLEDDisplay.java:342-346 | OR with the bit mask sets exactly bit k; AND with its complement clears exactly bit k; the other seven bits keep their values |
| FrameBuffer.Clear | src/main/java/de/pi3g/pi/oled/OLEDDisplay.java:252-254 | all 1024 bytes are zero and no panel pixel is lit |
| FrameBuffer.UpdateImageBuffer | src/main/java/de/pi3g/pi/oled/OLEDDisplay.java:339-348 | if the index is in [0, 1024), only that byte changes and only at bit `y & 7`, which becomes `on`; otherwise the buffer is unchanged |
| FrameBuffer.ByteExtensional | src/main/java/de/pi3g/pi/oled/OLEDDisplay.java:343-345 | a byte is determined by its eight bits, so bit-level effects fix the byte |
| FrameBuffer.PixelOfBit | src/main/java/de/pi3g/pi/oled/OLEDDisplay.java:340 | every (byte, bit) of the buffer is the address of a panel pixel |
| FrameBuffer.PixelAddressInjective | src/main/java/de/pi3g/pi/oled/OLEDDisplay.java:340 | distinct panel pixels have distinct (byte, bit) addresses |
| FrameBuffer.PixelsDetermineBuffer | src/main/java/de/pi3g/pi/oled/OLEDDisplay.java:100-103 | two buffers that show the same panel image are equal |
| FrameBuffer.UpdateReadBack | src/main/java/de/pi3g/pi/oled/OLEDDisplay.java:339-348 | on the panel a write always lands; the written pixel reads back as `on` and every other pixel is unchanged |
| FrameBuffer.LandedWriteAliases | src/main/java/de/pi3g/pi/oled/OLEDDisplay.java:340-341 | any write that passes the index guard has the same effect as a write to one real panel pixel |
| FrameBuffer.RightEdgeSpills | src/main/java/de/pi3g/pi/oled/OLEDDisplay.java:340-341 | for every row y outside -7..-1, a write to (x + 128, y) is a write to (x, y + 8) (in rows -7..-1, `y / 8` and `(y + 8) / 8` are both 0, so the two writes hit different bytes) |
| FrameBuffer.NegativeRowAliases | src/main/java/de/pi3g/pi/oled/OLEDDisplay.java:340-343 | rows -7..-1 truncate to page 0, so a write to (x, y) is a write to (x, y + 8) |
| FrameBuffer.RowMinusOneLightsRowSeven | src/main/java/de/pi3g/pi/oled/OLEDDisplay.java:340-343 | on a clear buffer, writing (0, -1) lights the visible pixel (0, 7) |
| FrameBuffer.UpdateIdempotent | src/main/java/de/pi3g/pi/oled/OLEDDisplay.java:339-348 | repeating the same write leaves the buffer as the first write left it |
| FrameBuffer.UpdateLastWins | src/main/java/de/pi3g/pi/oled/OLEDDisplay.java:339-348 | of two writes to the same coordinates only the last one matters |
| FrameBuffer.UpdateBit | src/main/java/de/pi3g/pi/oled/OLEDDisplay.java:339-348 | the effect of one write on any given (byte, bit) of the buffer |
| FrameBuffer.CommuteAt | src/main/java/de/pi3g/pi/oled/OLEDDisplay.java:339-348 | two writes of the same colour, or to different targets, give the same byte in either order |
| FrameBuffer.UpdateCommutes | src/main/java/de/pi3g/pi/oled/OLEDDisplay.java:339-348 | two writes of the same colour, or to different targets, give the same buffer in either order |
| Drawing.SetPixel | src/main/java/de/pi3g/pi/oled/OLEDDisplay.java:321-337 | `setPixel`: no contract of its own, to keep its many uses cheap; `SetPixelEffect`, `SetPixelAt` and `SetPixelReadBack` state its effect, and `UpdateImageBuffer` covers writes outside the frame |
| Drawing.SetPixelEffect | src/main/java/de/pi3g/pi/oled/OLEDDisplay.java:321-337 | inside the logical frame, `setPixel` changes exactly one physical pixel, the image of (x, y), to `on` |
| Drawing.SetPixelAt | src/main/java/de/pi3g/pi/oled/OLEDDisplay.java:321-337 | inside the frame, logical (x, y) reads back `on` and every other logical pixel is unchanged |
| Drawing.SetPixelReadBack | src/main/java/de/pi3g/pi/oled/OLEDDisplay.java:321-337 | the same read-back, for all logical pixels at once |
| Drawing.HalfTurnLightsOpposite | src/main/java/de/pi3g/pi/oled/OLEDDisplay.java:330-332 | at 180 degrees, a logical write at (x, y) lights physical (127 - x, 63 - y) |
| Drawing.QuarterTurnLightsSwapped | src/main/java/de/pi3g/pi/oled/OLEDDisplay.java:327-329 | at 90 degrees, a logical write at (x, y) lights physical (y, 63 - x), using the logical width 64 |
| Drawing.ClearRect | src/main/java/de/pi3g/pi/oled/OLEDDisplay.java:377-383 | `clearRect`: no contract of its own; `ClearRectEffect` states its effect on an in-frame rectangle and `ClearRectEmpty` on an empty one |
| Drawing.EmptyColumnsUnchanged | src/main/java/de/pi3g/pi/oled/OLEDDisplay.java:378-382 | when the row range is empty the column loop runs without effect, however many columns it visits |
| Drawing.ClearRectEmpty | src/main/java/de/pi3g/pi/oled/OLEDDisplay.java:377-383 | a rectangle with no width or no height leaves the buffer unchanged, wherever it lies |
| Drawing.FillColumnAt | src/main/java/de/pi3g/pi/oled/OLEDDisplay.java:379-381 | the inner loop of `clearRect` sets exactly the column's rows to `on` and leaves every other logical pixel alone |
| Drawing.FillColumnsAt | src/main/java/de/pi3g/pi/oled/OLEDDisplay.java:378-382 | the outer loop sets exactly the rectangle's logical pixels to `on` and leaves the rest alone |
| Drawing.ClearRectPixel | src/main/java/de/pi3g/pi/oled/OLEDDisplay.java:377-383 | for an in-frame rectangle, a physical pixel is `on` if it is the image of a rectangle point and is unchanged otherwise |
| Drawing.ClearRectEffect | src/main/java/de/pi3g/pi/oled/OLEDDisplay.java:377-383 | for an in-frame rectangle, every logical pixel inside it is `on` and every other physical bit is unchanged |
| Drawing.ScanIndexInjective | src/main/java/de/pi3g/pi/oled/OLEDDisplay.java:400-405 | distinct logical pixels have distinct positions in a raster of the logical frame's size |
| Drawing.PaintStep | src/main/java/de/pi3g/pi/oled/OLEDDisplay.java:409-411 | one `setPixel` at the pixel of raster position n, with that raster bit, extends by one the prefix of logical pixels that show the raster |
| Drawing.RasterBitOfByte | src/main/java/de/pi3g/pi/oled/OLEDDisplay.java:409 | the bit read at running index n is bit `7 - n % 8` of byte `n / 8`, most significant first |
| Drawing.ScanPosition | src/main/java/de/pi3g/pi/oled/OLEDDisplay.java:407-411 | while the scan follows the logical frame, bit `bit` of byte `posX` is the in-frame pixel (8 * posX + bit, posY), at raster position index + bit |
| Drawing.ScanStep | src/main/java/de/pi3g/pi/oled/OLEDDisplay.java:408-412 | one iteration of the innermost loop paints the pixel at its raster position |
| Drawing.DrawByte | src/main/java/de/pi3g/pi/oled/OLEDDisplay.java:408-412 | the innermost loop paints the eight pixels of one raster byte; on the as-written scan it also keeps the stray write of position 64 in place |
| Drawing.RowLayout | src/main/java/de/pi3g/pi/oled/OLEDDisplay.java:406-407 | a logical row is `getWidth() / 8` whole bytes, rows follow each other, and together they cover all 8192 raster bits |
| Drawing.PaintedFrame | src/main/java/de/pi3g/pi/oled/OLEDDisplay.java:400-414 | once the whole raster is painted, every logical pixel shows its raster bit |
| Drawing.DrawRow | src/main/java/de/pi3g/pi/oled/OLEDDisplay.java:407-413 | the middle loop paints a whole row when the row and byte count are the logical frame's |
| Drawing.QuarterScanAliases | src/main/java/de/pi3g/pi/oled/OLEDDisplay.java:327-329 | at 90 degrees the as-written scan point (64, 0) is outside the frame, yet its write is the write to logical (56, 0) |
| Drawing.LaterScanMisses | src/main/java/de/pi3g/pi/oled/OLEDDisplay.java:327-329 | at 90 degrees no as-written scan write after position 64 touches the physical pixel of logical (56, 0) |
| Drawing.StrayStep | src/main/java/de/pi3g/pi/oled/OLEDDisplay.java:406-414 | each as-written scan step keeps raster bit 64 at logical (56, 0) once position 64 has passed |
| Drawing.StrayScanStep | src/main/java/de/pi3g/pi/oled/OLEDDisplay.java:408-412 | the same, for one iteration of the innermost loop |
| Drawing.DrawImage | src/main/java/de/pi3g/pi/oled/OLEDDisplay.java:399-415 | as written: at 0 and 180 degrees every logical pixel (x, y) ends up showing raster bit 128 * y + x; at 90 degrees logical (56, 0) ends up showing raster bit 64 |
| Drawing.QuarterTurnCounterexample | src/main/java/de/pi3g/pi/oled/OLEDDisplay.java:399-415 | an image with only pixel (56, 0) set, drawn as written at 90 degrees on a clear panel, leaves that pixel off |
| Drawing.DrawImageInFrame | src/main/java/de/pi3g/pi/oled/OLEDDisplay.java:399-415 | the scan over the logical frame's rows and bytes leaves every logical pixel (x, y) showing raster bit getWidth() * y + x, for every rotation |
| Text.DrawFrom | src/main/java/de/pi3g/pi/oled/OLEDDisplay.java:357-368 | at most one glyph per UTF-16 code unit, never for a line feed, and every glyph requested lies with its whole cell strictly inside the logical frame |
| Text.DrawString | src/main/java/de/pi3g/pi/oled/OLEDDisplay.java:354-369 | at most one glyph per code unit, never for a line feed, each fully inside the frame and drawn with the caller's colour |
| Text.DrawFromSnoc | src/main/java/de/pi3g/pi/oled/OLEDDisplay.java:357-368 | processing a prefix and then one more character is processing the longer string |
| Text.AdvanceIsLayout | src/main/java/de/pi3g/pi/oled/OLEDDisplay.java:358-367 | the cursor after any prefix is at column x + (characters since the last newline) * outerWidth and row y + (newlines) * outerHeight |
| Text.DrawStringIsLayout | src/main/java/de/pi3g/pi/oled/OLEDDisplay.java:354-369 | `drawString` requests exactly the independent character-by-character reference layout |
| Text.CenteredX | src/main/java/de/pi3g/pi/oled/OLEDDisplay.java:372-373 | the start column is the slack halved and truncated toward zero, for negative slack too |
| Text.DrawStringCentered | src/main/java/de/pi3g/pi/oled/OLEDDisplay.java:371-375 | `drawStringCentered` is the reference layout started at the centred column, with at most one glyph per code unit |
| Text.SurrogatePairCentred | src/main/java/de/pi3g/pi/oled/OLEDDisplay.java:357-373 | U+1F600 is two code units: at 0 degrees with 6-pixel cells it is centred at column 58 and yields two glyph requests, at 58 and 64 |
| Text.SingleLineLayout | src/main/java/de/pi3g/pi/oled/OLEDDisplay.java:358-367 | without newlines there is one line and the column is the length |
| Text.FittingLineLayout | src/main/java/de/pi3g/pi/oled/OLEDDisplay.java:362-366 | a single line whose every cell fits yields one glyph per character at x + k * outerWidth on row y |
| Text.FittingLineDrawnInFull | src/main/java/de/pi3g/pi/oled/OLEDDisplay.java:354-369 | such a line is drawn in full, glyph k being character k |
| Text.CenteredLineOnOneRow | src/main/java/de/pi3g/pi/oled/OLEDDisplay.java:371-375 | a centred string without newlines puts every glyph on row y |
| Text.RowsStayOnLine | src/main/java/de/pi3g/pi/oled/OLEDDisplay.java:358-367 | without newlines the cursor never leaves its row |
| Commands.BuildEncode | src/main/java/de/pi3g/pi/oled/OLEDDisplay.java:105-140 | every well-formed command's opcode has the arity of its arguments, and the command is rebuilt from its own encoding |
| Commands.EncodeBuild | src/main/java/de/pi3g/pi/oled/OLEDDisplay.java:105-140 | every opcode with its argument bytes builds a well-formed command that encodes back to those bytes |
| Commands.DecodeOne | src/main/java/de/pi3g/pi/oled/OLEDDisplay.java:105-140 | a decoded command never consumes more bytes than there are, and at least one |
| Commands.DecodeOneEncode | src/main/java/de/pi3g/pi/oled/OLEDDisplay.java:105-140 | the decoder reads back exactly one encoded command from the front of a stream |
| Commands.DecodeEncodeAll | src/main/java/de/pi3g/pi/oled/OLEDDisplay.java:105-140 | decoding an encoded list of well-formed commands gives the list back |
| Commands.DecodeFront | src/main/java/de/pi3g/pi/oled/OLEDDisplay.java:105-140 | a stream that decodes starts with the canonical encoding of its first command |
| Commands.DecodedWellFormed | src/main/java/de/pi3g/pi/oled/OLEDDisplay.java:105-140 | every decoded command is well-formed |
| Commands.EncodeAllDecode | src/main/java/de/pi3g/pi/oled/OLEDDisplay.java:105-140 | whatever decodes is the encoding of what it decodes to (the other half of the round trip) |
| Commands.EncodeAllAppend | src/main/java/de/pi3g/pi/oled/OLEDDisplay.java:105-140 | encoding distributes over concatenation |
| Protocol.StreamAppend | src/main/java/de/pi3g/pi/oled/OLEDDisplay.java:282-284 | the bytes a trace carries on one register distribute over concatenation of traces |
| Protocol.StreamsAppend | src/main/java/de/pi3g/pi/oled/OLEDDisplay.java:282-284 | the command and data streams both distribute over concatenation of traces |
| Protocol.CommandWrites | src/main/java/de/pi3g/pi/oled/OLEDDisplay.java:282-284 | one write on register 0x00 per command byte, in order |
| Protocol.CommandWritesStreams | src/main/java/de/pi3g/pi/oled/OLEDDisplay.java:282-284 | command writes carry exactly their bytes on the command stream and nothing on the data stream |
| Protocol.Init | src/main/java/de/pi3g/pi/oled/OLEDDisplay.java:286-317 | 25 writes, all on register 0x00, the first 0xAE and the last 0xAF, the 12th 0x02 in page mode and 0x00 otherwise |
| Protocol.InitModesAgreeElsewhere | src/main/java/de/pi3g/pi/oled/OLEDDisplay.java:297-302 | the two modes' init traces agree everywhere except the memory-mode argument |
| Protocol.PowerUpEncodes | src/main/java/de/pi3g/pi/oled/OLEDDisplay.java:287-296 | the first ten init bytes encode display off, clock, multiplex, offset, start line and charge pump |
| Protocol.PanelEncodes | src/main/java/de/pi3g/pi/oled/OLEDDisplay.java:303-316 | the last thirteen init bytes encode segment remap, scan direction, pins, contrast, precharge, VCOM, resume, normal and display on |
| Protocol.InitWellFormed | src/main/java/de/pi3g/pi/oled/OLEDDisplay.java:286-317 | every command of the init program is well-formed |
| Protocol.InitEncodes | src/main/java/de/pi3g/pi/oled/OLEDDisplay.java:286-317 | the init bytes are the encoding of the init command program |
| Protocol.InitDecodes | src/main/java/de/pi3g/pi/oled/OLEDDisplay.java:286-317 | the init trace's command stream decodes to the init program, and it sends no data |
| Protocol.WriteBytes | src/main/java/de/pi3g/pi/oled/OLEDDisplay.java:466-471 | when the slice is in range the result has length size + 1, the address byte first and then the slice in order; otherwise Java throws, modelled as None: a negative size makes `new byte[size + 1]` or the store into `buf[0]` throw, and a bad slice makes `System.arraycopy` throw |
| Protocol.ChunksTileBuffer | src/main/java/de/pi3g/pi/oled/OLEDDisplay.java:449 | 64 chunks of 16 bytes cover the 1024-byte buffer |
| Protocol.HorizontalChunks | src/main/java/de/pi3g/pi/oled/OLEDDisplay.java:449-453 | the data loop sends 64 raw writes |
| Protocol.ColumnEndByte | src/main/java/de/pi3g/pi/oled/OLEDDisplay.java:443 | the column end byte `(byte) (DISPLAY_WIDTH - 1)` is 0x7F |
| Protocol.FrameIsChunk | src/main/java/de/pi3g/pi/oled/OLEDDisplay.java:449-453 | raw write i is 17 bytes, the data control byte and then buffer bytes 16 * i .. 16 * i + 15 |
| Protocol.HorizontalChunksShape | src/main/java/de/pi3g/pi/oled/OLEDDisplay.java:449-453 | every raw write is the control byte followed by its chunk |
| Protocol.HorizontalChunksStream | src/main/java/de/pi3g/pi/oled/OLEDDisplay.java:449-453 | the raw writes from chunk i on carry buffer bytes 16 * i onward on the data stream and nothing on the command stream |
| Protocol.HorizontalChunksStreams | src/main/java/de/pi3g/pi/oled/OLEDDisplay.java:449-453 | all raw writes together carry the buffer in order |
| Protocol.UpdateHorizontal | src/main/java/de/pi3g/pi/oled/OLEDDisplay.java:440-454 | horizontal `update` is 70 transactions, of which exactly the first six are single register writes |
| Protocol.UpdateHorizontalShape | src/main/java/de/pi3g/pi/oled/OLEDDisplay.java:440-454 | six command writes, then 64 raw writes each made of 0x40 and the next 16 bytes |
| Protocol.PreambleDecodes | src/main/java/de/pi3g/pi/oled/OLEDDisplay.java:441-447 | the six command bytes are the column range 0..127 and the page range 0..7 |
| Protocol.UpdateHorizontalStreams | src/main/java/de/pi3g/pi/oled/OLEDDisplay.java:440-454 | the data stream is the whole buffer in order; the commands decode to the two range commands |
| Protocol.PageData | src/main/java/de/pi3g/pi/oled/OLEDDisplay.java:435-437 | one page's data is 128 single writes |
| Protocol.PageBlock | src/main/java/de/pi3g/pi/oled/OLEDDisplay.java:432-438 | one page's block is 131 writes |
| Protocol.DataWritesStream | src/main/java/de/pi3g/pi/oled/OLEDDisplay.java:435-437 | single writes to the data register carry their values in order on the data stream and nothing on the command stream |
| Protocol.PageDataStream | src/main/java/de/pi3g/pi/oled/OLEDDisplay.java:435-437 | the page's writes from column i on carry the page's bytes from column i on, all on the data register |
| Protocol.PageDataStreams | src/main/java/de/pi3g/pi/oled/OLEDDisplay.java:435-437 | a page's data writes carry its 128 bytes in order and no commands |
| Protocol.PageBlockShape | src/main/java/de/pi3g/pi/oled/OLEDDisplay.java:432-438 | a page block is commands 0xB0 + p, 0x02, 0x10, then 128 data writes of buffer bytes 128 * p .. 128 * p + 127 |
| Protocol.PageBlockStreams | src/main/java/de/pi3g/pi/oled/OLEDDisplay.java:432-438 | a page block carries the page header on the command stream and the page's bytes on the data stream |
| Protocol.PageSelectByte | src/main/java/de/pi3g/pi/oled/OLEDDisplay.java:433 | `(byte) (0xB0 + page)` is the page-start opcode for page p |
| Protocol.PageHeaderEncodes | src/main/java/de/pi3g/pi/oled/OLEDDisplay.java:433-435 | the page header is the encoding of page start p, low column 2, high column 0 |
| Protocol.PageBlocksLength | src/main/java/de/pi3g/pi/oled/OLEDDisplay.java:431-439 | the blocks of pages p..7 are 131 * (8 - p) transactions |
| Protocol.PageProgramWellFormed | src/main/java/de/pi3g/pi/oled/OLEDDisplay.java:431-439 | the page-mode command program is well-formed |
| Protocol.PageBlocksCommands | src/main/java/de/pi3g/pi/oled/OLEDDisplay.java:431-439 | the command stream of pages p..7 is the encoding of their headers |
| Protocol.PageBlocksData | src/main/java/de/pi3g/pi/oled/OLEDDisplay.java:431-439 | the data stream of pages p..7 is the buffer from byte 128 * p on |
| Protocol.PageBlocksAt | src/main/java/de/pi3g/pi/oled/OLEDDisplay.java:431-439 | transaction 131 * (q - p) + j of pages p..7 is transaction j of page q's block |
| Protocol.UpdatePage | src/main/java/de/pi3g/pi/oled/OLEDDisplay.java:429-439 | page-mode `update` is eight blocks of 131 transactions |
| Protocol.UpdatePageShape | src/main/java/de/pi3g/pi/oled/OLEDDisplay.java:429-439 | page-mode `update` is 1048 transactions, page p's block starting at transaction 131 * p |
| Protocol.UpdatePageStreams | src/main/java/de/pi3g/pi/oled/OLEDDisplay.java:429-439 | the data stream is the whole buffer in order; the commands decode to page start, column 2, column 0 for pages 0..7 |
| Protocol.Update | src/main/java/de/pi3g/pi/oled/OLEDDisplay.java:428-455 | `update` takes 1048 transactions in page mode and 70 otherwise, whatever the buffer holds; its data stream is the whole buffer in order, and its commands decode to the mode's addressing set-up |
| Display.Transmit | src/main/java/de/pi3g/pi/oled/OLEDDisplay.java:282-284 | a bus that fails after `budget` transactions delivers a prefix of the trace, all of it exactly when the trace fits |
| Display.Open | src/main/java/de/pi3g/pi/oled/OLEDDisplay.java:226-250 | the constructor yields a display exactly when `init` goes through; the display has the given rotation and mode and a blank buffer |
| Display.OpenSendsInit | src/main/java/de/pi3g/pi/oled/OLEDDisplay.java:237-249 | an opened display has sent exactly the init program and no data |
| Display.Refresh | src/main/java/de/pi3g/pi/oled/OLEDDisplay.java:428-455 | `update` sends a prefix of the mode's protocol, all of it when the bus does not fail, and nothing once the device is closed |
| Display.RefreshShowsBuffer | src/main/java/de/pi3g/pi/oled/OLEDDisplay.java:428-455 | a completed `update` sends the whole buffer in order, with the mode's addressing commands |
| Display.Shutdown | src/main/java/de/pi3g/pi/oled/OLEDDisplay.java:473-486 | the buffer becomes all zero and rotation and mode are kept; what is sent is a prefix of the update of the blank buffer; the device is closed afterwards exactly when it already was or the update went through |
| Display.ShutdownBlanksPanel | src/main/java/de/pi3g/pi/oled/OLEDDisplay.java:473-486 | on an open device with a bus that takes the whole update, shutdown writes 1024 zero bytes to display RAM |
| Display.ShutdownRepeats | src/main/java/de/pi3g/pi/oled/OLEDDisplay.java:473-486 | a second shutdown leaves the same state; after a completed one it sends nothing, after a failed one it retries the same update; what is sent never depends on earlier drawing |

## Left out

- Pi4J context, provider and I2C device creation, and what `device.close`
  and `pi4j.shutdown` do beyond closing the device: hardware and library
  I/O. The bus is an event trace, and its failure is a transaction budget
  after which it raises an I/O error.
- Writes to a closed device: what Pi4J does then is library behaviour.
  The model assumes it fails at once, so nothing more reaches the panel.
- The shutdown hook registration and `synchronized` locking: process
  lifecycle and concurrency. `shutdown` is an ordinary call.
- Logging, and the `IOException` catch in `shutdown` beyond its effect.
  The buffer stays cleared, the trace stops at the failing write, and
  the device stays open.
- AWT `BufferedImage` creation and the `Graphics.drawImage` thresholding in
  `drawImage`: a foreign library. The unpack loop runs over an abstract
  1024-byte raster.
- `Font.drawChar` and the glyph shapes: the `Font` class is not part of
  this model. A drawn character is an emitted `Glyph` request, and the font
  metrics are parameters.
- `drawChar`, the public pass-through to the font: it has no logic of its
  own.
- The five convenience constructors: each is the full constructor with
  some arguments fixed. Four supply the default bus and/or address, three
  fix rotation `DEG_0`, and the no-argument one also fixes horizontal
  addressing. Bus and address are I/O parameters; the rest is
  `Open(Deg0, false, ...)`, `Open(Deg0, pageMode, ...)` or
  `Open(rot, pageMode, ...)`.
- FrameBuffer.UpdateImageBuffer: Java `int` overflow is not modelled;
  integers are unbounded. The product `(y / 8) * 128` wraps once
  y >= 2^27 or y <= -2^27 - 8. For example, `setPixel(5, 268435456)` at 0 degrees computes
  `(2^25) * 128 = 2^32`, which wraps to 0. Java therefore sets byte 5,
  bit 0, while the model drops the write. The remap's `getWidth() - x - 1`
  also wraps for x near -2^31. On-panel coordinates stay clear of these
  limits.
- Drawing.ClearRect: the loop bounds `x + width` and `y + height` are
  Java `int` sums and wrap too, even when x and y are on the panel.
  `clearRect(10, 0, Integer.MAX_VALUE, 1, true)` draws nothing in Java,
  because `10 + MAX_VALUE` wraps negative and the outer loop never runs.
  The model's sum does not wrap, so it lights (10, 0) and every later
  column. `ClearRectEffect` is unaffected for rectangles inside the frame,
  whose sums are at most 128.
- Drawing.DrawImage: promises the full read-back only at 0 and 180
  degrees. At 90 degrees the code misdraws (see Findings), and the
  contract states one concrete consequence instead. At 270 degrees it
  states nothing.
- Drawing.ClearRectEffect: states the effect only for rectangles inside the
  logical frame. Outside it, `setPixel` writes can alias through the index
  guard (see `RightEdgeSpills`, `NegativeRowAliases`). Their effect
  per write is still covered by `UpdateImageBuffer`.
- Lone surrogates: a Java string may hold them, but a Dafny string cannot,
  so `Utf16` never produces one. The text operations take code-unit
  sequences and handle a lone surrogate like any other unit.

## Findings

| source | as written | input that shows it | evidently intended | confidence | as-written member | corrected member |
|---|---|---|---|---|---|---|
| src/main/java/de/pi3g/pi/oled/OLEDDisplay.java:406-410 | `drawImage` renders the image into a `getWidth()` x `getHeight()` raster, but unpacks it as `DISPLAY_HEIGHT` rows of `DISPLAY_WIDTH / 8` bytes. Under a 90 or 270 degree rotation, that is 64 rows of 128 pixels for a frame 64 pixels wide, so writes at x >= 64 leave the frame. At both quarter turns, rows 64 and up of the frame are never drawn, and logical (x, y) with y < 64 receives raster bit `128 * y + x`, so image row 2y is squeezed into frame row y. At 270 degrees the writes at x >= 64 land in page 8 or later and are dropped. At 90 degrees those at x = 64..70 alias back onto logical x - 8 of the same row, so logical (56..62, y) ends up with raster bit `128 * y + x + 8`. The model proves the (56, 0) case; the rest is read from the code | rotation 90 degrees, clear panel, an image whose only set pixel is (56, 0): scan point (64, 0) maps to physical row -1, which truncates onto row 7, the pixel of logical (56, 0). It overwrites that pixel with the image's bit 64, which is 0, so the pixel ends up off | loop over `getHeight()` rows of `getWidth() / 8` bytes, so that logical (x, y) shows raster bit `getWidth() * y + x` | high that the loop bounds ignore rotation; medium on the raster layout, which assumes a packed one-bit raster with rows of `getWidth() / 8` bytes; not executed | Drawing.QuarterTurnCounterexample | Drawing.DrawImageInFrame |

=== FILE: commands.dfy ===
/** The controller commands the driver uses, as the SSD1306/SH1106 command
    set encodes them: an opcode byte followed by 0, 1 or 2 argument bytes
    on the command register. The opcodes are the driver's constants. */
module Commands {
  import opened Wrappers

  datatype Command =
    | SetLowColumn(nibble: bv8)                  // 0x00 | nibble
    | SetHighColumn(nibble: bv8)                 // 0x10 | nibble
    | SetMemoryMode(mode: bv8)                   // 0x20, mode
    | SetColumnAddress(first: bv8, last: bv8)    // 0x21, first, last
    | SetPageAddress(first: bv8, last: bv8)      // 0x22, first, last
    | SetStartLine(line: bv8)                    // 0x40 | line
    | SetContrast(level: bv8)                    // 0x81, level
    | ChargePump(setting: bv8)                   // 0x8D, setting
    | SegmentRemap(flipped: bool)                // 0xA0 | flipped
    | DisplayAllOnResume                         // 0xA4
    | DisplayAllOn                               // 0xA5
    | NormalDisplay                              // 0xA6
    | InvertDisplay                              // 0xA7
    | SetMultiplex(ratio: bv8)                   // 0xA8, ratio
    | DisplayOff                                 // 0xAE
    | DisplayOn                                  // 0xAF
    | SetPageStart(page: bv8)                    // 0xB0 | page
    | ComScan(decrementing: bool)                // 0xC0 or 0xC8
    | SetDisplayOffset(offset: bv8)              // 0xD3, offset
    | SetClockDiv(ratio: bv8)                    // 0xD5, ratio
    | SetPrecharge(period: bv8)                  // 0xD9, period
    | SetComPins(config: bv8)                    // 0xDA, config
    | SetVcomDetect(level: bv8)                  // 0xDB, level

  /** Field ranges of the commands that pack their argument into the opcode. */
  predicate WellFormed(c: Command) {
    match c
    case SetLowColumn(n) => n < 0x10
    case SetHighColumn(n) => n < 0x10
    case SetStartLine(l) => l < 0x40
    case SetPageStart(p) => p < 0x08
    case _ => true
  }

  predicate AllWellFormed(cs: seq<Command>) {
    forall k | 0 <= k < |cs| :: WellFormed(cs[k])
  }

  function Opcode(c: Command): bv8 {
    match c
    case SetLowColumn(n) => n
    case SetHighColumn(n) => 0x10 | n
    case SetMemoryMode(_) => 0x20
    case SetColumnAddress(_, _) => 0x21
    case SetPageAddress(_, _) => 0x22
    case SetStartLine(l) => 0x40 | l
    case SetContrast(_) => 0x81
    case ChargePump(_) => 0x8D
    case SegmentRemap(f) => if f then 0xA1 else 0xA0
    case DisplayAllOnResume => 0xA4
    case DisplayAllOn => 0xA5
    case NormalDisplay => 0xA6
    case InvertDisplay => 0xA7
    case SetMultiplex(_) => 0xA8
    case DisplayOff => 0xAE
    case DisplayOn => 0xAF
    case SetPageStart(p) => 0xB0 | p
    case ComScan(d) => if d then 0xC8 else 0xC0
    case SetDisplayOffset(_) => 0xD3
    case SetClockDiv(_) => 0xD5
    case SetPrecharge(_) => 0xD9
    case SetComPins(_) => 0xDA
    case SetVcomDetect(_) => 0xDB
  }

  function Arguments(c: Command): seq<bv8> {
    match c
    case SetMemoryMode(m) => [m]
    case SetColumnAddress(a, b) => [a, b]
    case SetPageAddress(a, b) => [a, b]
    case SetContrast(v) => [v]
    case ChargePump(v) => [v]
    case SetMultiplex(v) => [v]
    case SetDisplayOffset(v) => [v]
    case SetClockDiv(v) => [v]
    case SetPrecharge(v) => [v]
    case SetComPins(v) => [v]
    case SetVcomDetect(v) => [v]
    case _ => []
  }

  /** The bytes a command occupies on the command register. */
  function Encode(c: Command): seq<bv8> {
    [Opcode(c)] + Arguments(c)
  }

  function EncodeAll(cs: seq<Command>): seq<bv8> {
    if |cs| == 0 then [] else Encode(cs[0]) + EncodeAll(cs[1..])
  }

  /** How many argument bytes follow an opcode; None for a byte that is not
      an opcode of this command set. */
  function Arity(op: bv8): Option<nat> {
    if op < 0x20 then Some(0)
    else if op == 0x20 then Some(1)
    else if op == 0x21 || op == 0x22 then Some(2)
    else if 0x40 <= op < 0x80 then Some(0)
    else if op == 0x81 || op == 0x8D || op == 0xA8 then Some(1)
    else if op == 0xA0 || op == 0xA1 || 0xA4 <= op <= 0xA7 || op == 0xAE || op == 0xAF then Some(0)
    else if 0xB0 <= op < 0xB8 || op == 0xC0 || op == 0xC8 then Some(0)
    else if op == 0xD3 || op == 0xD5 || op == 0xD9 || op == 0xDA || op == 0xDB then Some(1)
    else None
  }

  /** The command an opcode and its argument bytes stand for. */
  function Build(op: bv8, args: seq<bv8>): Command
    requires Arity(op).Some? && |args| == Arity(op).value
  {
    if op < 0x10 then SetLowColumn(op)
    else if op < 0x20 then SetHighColumn(op & 0x0F)
    else if op == 0x20 then SetMemoryMode(args[0])
    else if op == 0x21 then SetColumnAddress(args[0], args[1])
    else if op == 0x22 then SetPageAddress(args[0], args[1])
    else if 0x40 <= op < 0x80 then SetStartLine(op & 0x3F)
    else if op == 0x81 then SetContrast(args[0])
    else if op == 0x8D then ChargePump(args[0])
    else if op == 0xA0 || op == 0xA1 then SegmentRemap(op == 0xA1)
    else if op == 0xA4 then DisplayAllOnResume
    else if op == 0xA5 then DisplayAllOn
    else if op == 0xA6 then NormalDisplay
    else if op == 0xA7 then InvertDisplay
    else if op == 0xA8 then SetMultiplex(args[0])
    else if op == 0xAE then DisplayOff
    else if op == 0xAF then DisplayOn
    else if 0xB0 <= op < 0xB8 then SetPageStart(op & 0x07)
    else if op == 0xC0 || op == 0xC8 then ComScan(op == 0xC8)
    else if op == 0xD3 then SetDisplayOffset(args[0])
    else if op == 0xD5 then SetClockDiv(args[0])
    else if op == 0xD9 then SetPrecharge(args[0])
    else if op == 0xDA then SetComPins(args[0])
    else SetVcomDetect(args[0])
  }

  /** Every well-formed command is rebuilt from its own encoding, and every
      decodable opcode with its arguments is the encoding of a well-formed
      command: opcode and arguments are a bijective code. */
  lemma BuildEncode(c: Command)
    requires WellFormed(c)
    ensures Arity(Opcode(c)) == Some(|Arguments(c)|)
    ensures Build(Opcode(c), Arguments(c)) == c
  {
  }

  lemma EncodeBuild(op: bv8, args: seq<bv8>)
    requires Arity(op).Some? && |args| == Arity(op).value
    ensures WellFormed(Build(op, args))
    ensures Encode(Build(op, args)) == [op] + args
  {
    OpcodeBits(op);
    var c := Build(op, args);
    if |args| == 0 {
      assert Opcode(c) == op && Arguments(c) == [];
    } else if |args| == 1 {
      assert Opcode(c) == op && Arguments(c) == [args[0]];
    } else {
      assert Opcode(c) == op && Arguments(c) == [args[0], args[1]];
    }
  }

  /** The opcodes that carry a field in their low bits are rebuilt from
      their prefix and that field. */
  lemma OpcodeBits(op: bv8)
    ensures 0x10 <= op < 0x20 ==> op & 0x0F < 0x10 && 0x10 | (op & 0x0F) == op
    ensures 0x40 <= op < 0x80 ==> op & 0x3F < 0x40 && 0x40 | (op & 0x3F) == op
    ensures 0xB0 <= op < 0xB8 ==> op & 0x07 < 0x08 && 0xB0 | (op & 0x07) == op
  {
  }

  /** Read one command from the front of a byte stream. */
  function DecodeOne(bytes: seq<bv8>): (r: Option<(Command, nat)>)
    ensures r.Some? ==> 1 <= r.value.1 <= |bytes|
  {
    if |bytes| == 0 then None
    else match Arity(bytes[0])
      case None => None
      case Some(n) =>
        if |bytes| < 1 + n then None
        else Some((Build(bytes[0], bytes[1..1 + n]), 1 + n))
  }

  /** Split a whole command stream into commands; None if any byte is not
      a known opcode or the stream ends inside a command. */
  function Decode(bytes: seq<bv8>): Option<seq<Command>>
    decreases |bytes|
  {
    if |bytes| == 0 then Some([])
    else match DecodeOne(bytes)
      case None => None
      case Some((c, n)) =>
        match Decode(bytes[n..])
        case None => None
        case Some(rest) => Some([c] + rest)
  }

  lemma DecodeOneEncode(c: Command, rest: seq<bv8>)
    requires WellFormed(c)
    ensures DecodeOne(Encode(c) + rest) == Some((c, |Encode(c)|))
  {
    BuildEncode(c);
    var bytes := Encode(c) + rest;
    assert bytes[1..1 + |Arguments(c)|] == Arguments(c);
  }

  /** Round trip: decoding an encoded command list gives the list back. */
  lemma {:induction false} DecodeEncodeAll(cs: seq<Command>)
    requires AllWellFormed(cs)
    ensures Decode(EncodeAll(cs)) == Some(cs)
    decreases |cs|
  {
    if |cs| > 0 {
      var bytes := EncodeAll(cs);
      DecodeOneEncode(cs[0], EncodeAll(cs[1..]));
      assert bytes[|Encode(cs[0])|..] == EncodeAll(cs[1..]);
      DecodeEncodeAll(cs[1..]);
      assert [cs[0]] + cs[1..] == cs;
    }
  }

  /** A stream that decodes starts with the canonical encoding of a
      well-formed command, and the rest of the stream decodes too. */
  lemma DecodeFront(bytes: seq<bv8>)
    requires |bytes| > 0 && Decode(bytes).Some?
    ensures DecodeOne(bytes).Some?
    ensures var c, n := DecodeOne(bytes).value.0, DecodeOne(bytes).value.1;
      && WellFormed(c)
      && Encode(c) == bytes[..n]
      && Decode(bytes[n..]).Some?
      && Decode(bytes).value == [c] + Decode(bytes[n..]).value
  {
    var n := DecodeOne(bytes).value.1;
    EncodeBuild(bytes[0], bytes[1..n]);
    assert bytes[..n] == [bytes[0]] + bytes[1..n];
  }

  lemma ConsWellFormed(c: Command, rest: seq<Command>)
    requires WellFormed(c) && AllWellFormed(rest)
    ensures AllWellFormed([c] + rest)
  {
    assert forall k | 1 <= k < |rest| + 1 :: ([c] + rest)[k] == rest[k - 1];
  }

  /** Encoding a list with a given head and tail, spelled out. */
  lemma EncodeCons(c: Command, rest: seq<Command>, head: seq<bv8>, tail: seq<bv8>)
    requires Encode(c) == head && EncodeAll(rest) == tail
    ensures EncodeAll([c] + rest) == head + tail
  {
    assert ([c] + rest)[1..] == rest;
  }

  /** Every command the decoder produces is well-formed. */
  lemma {:induction false} DecodedWellFormed(bytes: seq<bv8>)
    requires Decode(bytes).Some?
    ensures AllWellFormed(Decode(bytes).value)
    decreases |bytes|
  {
    if |bytes| > 0 {
      DecodeFront(bytes);
      var c, n := DecodeOne(bytes).value.0, DecodeOne(bytes).value.1;
      DecodedWellFormed(bytes[n..]);
      ConsWellFormed(c, Decode(bytes[n..]).value);
    }
  }

  /** The other direction: whatever decodes is the canonical encoding of the
      decoded commands, so the decoder accepts no alternative spellings. */
  lemma {:induction false} EncodeAllDecode(bytes: seq<bv8>)
    requires Decode(bytes).Some?
    ensures AllWellFormed(Decode(bytes).value)
    ensures EncodeAll(Decode(bytes).value) == bytes
    decreases |bytes|
  {
    DecodedWellFormed(bytes);
    if |bytes| > 0 {
      DecodeFront(bytes);
      var c, n := DecodeOne(bytes).value.0, DecodeOne(bytes).value.1;
      var tail, rest := bytes[n..], Decode(bytes[n..]).value;
      assert Decode(bytes).value == [c] + rest;
      EncodeAllDecode(tail);
      EncodeCons(c, rest, bytes[..n], tail);
      assert bytes[..n] + tail == bytes;
    }
  }

  lemma {:induction false} EncodeAllAppend(a: seq<Command>, b: seq<Command>)
    ensures EncodeAll(a + b) == EncodeAll(a) + EncodeAll(b)
    decreases |a|
  {
    if |a| == 0 {
      assert a + b == b;
    } else {
      assert (a + b)[1..] == a[1..] + b;
      EncodeAllAppend(a[1..], b);
    }
  }
}

=== FILE: display.dfy ===
/** The display object's lifecycle: the constructor (clear, then `init`),
    `update` as called by the application, and `shutdown` (clear, then
    `update`, then close the device). The I2C bus is an appendable trace of events that accepts a
    given number of transactions and then fails with an I/O error. */
module Display {
  import opened Wrappers
  import opened Panel
  import opened FrameBuffer
  import opened Commands
  import opened Protocol

  /** The driver's state: the framebuffer, the mounting angle and the
      addressing mode, both fixed at construction, and whether a completed
      `shutdown` has closed the I2C device. */
  datatype Display = Display(buffer: Buffer, rotation: Rotation, pageMode: bool, closed: bool)

  /** What a sequence of bus transactions achieved: the events that reached
      the bus, and whether all of them did (no I/O error was raised). */
  datatype Sent = Sent(events: seq<Event>, done: bool)

  /** Sends `t` over a bus that accepts `budget` transactions and raises an
      I/O error on the next one; the failing call and everything after it
      never reach the panel. */
  function Transmit(t: seq<Event>, budget: nat): (s: Sent)
    ensures s.done <==> |t| <= budget
    ensures s.events <= t
    ensures |s.events| == if s.done then |t| else budget
  {
    if |t| <= budget then Sent(t, true) else Sent(t[..budget], false)
  }

  /** The constructor: the buffer is cleared, then `init` runs. An I/O error
      during `init` escapes the constructor, so no display object results;
      the commands sent before it still reached the panel. */
  function Open(rot: Rotation, pageMode: bool, budget: nat): (r: (Sent, Option<Display>))
    ensures r.1.Some? <==> budget >= 25
    ensures r.0.events <= Init(pageMode)
    ensures r.1.Some? ==>
      && r.0.events == Init(pageMode)
      && r.1.value.rotation == rot && r.1.value.pageMode == pageMode && !r.1.value.closed
      && forall px, py | InPanel(px, py) :: !PixelOn(r.1.value.buffer, px, py)
  {
    var sent := Transmit(Init(pageMode), budget);
    (sent, if sent.done then Some(Display(Clear(), rot, pageMode, false)) else None)
  }

  /** A display that opened has sent exactly the initialisation program,
      and nothing on the data register. */
  lemma OpenSendsInit(rot: Rotation, pageMode: bool, budget: nat)
    requires budget >= 25
    ensures Decode(CommandBytes(Open(rot, pageMode, budget).0.events)) == Some(InitProgram(pageMode))
    ensures DataBytes(Open(rot, pageMode, budget).0.events) == []
  {
    InitDecodes(pageMode);
  }

  /** `update`: the framebuffer goes out with the protocol of the addressing
      mode; the buffer itself is not touched, so the display is unchanged.
      A closed device takes no transaction: the first write fails. */
  function Refresh(d: Display, budget: nat): (s: Sent)
    ensures s.events <= Update(d.buffer, d.pageMode)
    ensures s.done ==> s.events == Update(d.buffer, d.pageMode)
    ensures d.closed ==> s == Sent([], false)
  {
    Transmit(Update(d.buffer, d.pageMode), if d.closed then 0 else budget)
  }

  /** A completed `update` puts the whole framebuffer on the data register,
      in order, and its commands decode to the addressing set-up of the
      mode. */
  lemma RefreshShowsBuffer(d: Display, budget: nat)
    requires Refresh(d, budget).done
    ensures DataBytes(Refresh(d, budget).events) == d.buffer
    ensures Decode(CommandBytes(Refresh(d, budget).events))
         == Some(if d.pageMode then PageProgram(0)
                 else [SetColumnAddress(0, 127), SetPageAddress(0, 7)])
  {
  }

  /** `shutdown`: clear the buffer, then `update`, then close the device.
      An I/O error is caught and logged, so the display keeps its cleared
      buffer either way; the device is closed only when the update went
      through, since the error skips the close. */
  function Shutdown(d: Display, budget: nat): (r: (Display, Sent))
    ensures r.0.rotation == d.rotation && r.0.pageMode == d.pageMode
    ensures forall i | 0 <= i < MaxIndex :: r.0.buffer[i] == 0
    ensures r.1.events <= Update(r.0.buffer, d.pageMode)
    ensures r.0.closed <==> d.closed || r.1.done
    ensures d.closed ==> r.1 == Sent([], false)
  {
    var cleared := d.(buffer := Clear());
    var sent := Refresh(cleared, budget);
    (cleared.(closed := d.closed || sent.done), sent)
  }

  /** With an open device and a bus that accepts the whole update, shutdown
      blanks the panel: every byte it writes to display RAM is zero, and
      there are 1024 of them. */
  lemma ShutdownBlanksPanel(d: Display, budget: nat)
    requires !d.closed && budget >= |Update(Clear(), d.pageMode)|
    ensures Shutdown(d, budget).1.done
    ensures var data := DataBytes(Shutdown(d, budget).1.events);
      |data| == MaxIndex && forall i | 0 <= i < |data| :: data[i] == 0
  {
  }

  /** There is no run-once guard, but the close is one: after a completed
      shutdown a second call clears again and reaches nothing, while after
      a failed one it retries the very same update. The resulting state is
      the same either way, and what is sent never depends on what was
      drawn before. */
  lemma ShutdownRepeats(d: Display, e: Display, budget: nat)
    requires d.rotation == e.rotation && d.pageMode == e.pageMode && d.closed == e.closed
    ensures Shutdown(Shutdown(d, budget).0, budget).0 == Shutdown(d, budget).0
    ensures Shutdown(d, budget).1.done ==> Shutdown(Shutdown(d, budget).0, budget).1 == Sent([], false)
    ensures !Shutdown(d, budget).1.done ==> Shutdown(Shutdown(d, budget).0, budget) == Shutdown(d, budget)
    ensures Shutdown(d, budget) == Shutdown(e, budget)
  {
  }
}

=== FILE: drawing.dfy ===
/** Drawing in logical (rotated) coordinates: `setPixel`, `clearRect` and
    the bit-unpack loop of `drawImage`. */
module Drawing {
  import opened Panel
  import opened FrameBuffer

  /** The pixel a caller sees at logical (x, y). */
  predicate LogicalPixel(buf: Buffer, rot: Rotation, x: int, y: int)
    requires InFrame(rot, x, y)
  {
    var p := Remap(rot, x, y);
    PixelOn(buf, p.0, p.1)
  }

  /** `setPixel`: remap the logical point for the mounting angle, then write
      the framebuffer. */
  function SetPixel(buf: Buffer, rot: Rotation, x: int, y: int, on: bool): Buffer {
    var p := Remap(rot, x, y);
    UpdateImageBuffer(buf, p.0, p.1, on)
  }

  /** Inside the logical frame exactly one physical pixel changes: the
      image of (x, y). */
  lemma SetPixelEffect(buf: Buffer, rot: Rotation, x: int, y: int, on: bool)
    requires InFrame(rot, x, y)
    ensures forall px, py | InPanel(px, py) ::
      PixelOn(SetPixel(buf, rot, x, y, on), px, py)
        == if (px, py) == Remap(rot, x, y) then on else PixelOn(buf, px, py)
  {
    var p := Remap(rot, x, y);
    UpdateReadBack(buf, p.0, p.1, on);
  }

  /** Seen from the caller: inside the frame, `setPixel` makes (x, y) read
      back as `on` and leaves every other logical pixel as it was. */
  lemma SetPixelAt(buf: Buffer, rot: Rotation, x: int, y: int, on: bool, i: int, j: int)
    requires InFrame(rot, x, y) && InFrame(rot, i, j)
    ensures LogicalPixel(SetPixel(buf, rot, x, y, on), rot, i, j)
         == if i == x && j == y then on else LogicalPixel(buf, rot, i, j)
  {
    SetPixelEffect(buf, rot, x, y, on);
    if Remap(rot, i, j) == Remap(rot, x, y) {
      RemapInjective(rot, i, j, x, y);
    }
  }

  lemma SetPixelReadBack(buf: Buffer, rot: Rotation, x: int, y: int, on: bool)
    requires InFrame(rot, x, y)
    ensures forall i, j | InFrame(rot, i, j) ::
      LogicalPixel(SetPixel(buf, rot, x, y, on), rot, i, j)
        == if i == x && j == y then on else LogicalPixel(buf, rot, i, j)
  {
    forall i, j | InFrame(rot, i, j)
      ensures LogicalPixel(SetPixel(buf, rot, x, y, on), rot, i, j)
        == if i == x && j == y then on else LogicalPixel(buf, rot, i, j)
    {
      SetPixelAt(buf, rot, x, y, on, i, j);
    }
  }

  /** The 180 degree case of the rotation promise: a logical write at (x, y)
      lights the physical pixel (127 - x, 63 - y). */
  lemma HalfTurnLightsOpposite(buf: Buffer, x: int, y: int)
    requires InFrame(Deg180, x, y)
    ensures PixelOn(SetPixel(buf, Deg180, x, y, true), DisplayWidth - x - 1, DisplayHeight - y - 1)
  {
  }

  /** The 90 degree case: a logical write at (x, y) lights the physical
      pixel (y, 63 - x), where 64 is the logical width. */
  lemma QuarterTurnLightsSwapped(buf: Buffer, x: int, y: int)
    requires InFrame(Deg90, x, y)
    ensures PixelOn(SetPixel(buf, Deg90, x, y, true), y, Width(Deg90) - x - 1)
  {
  }

  predicate InRect(x: int, y: int, w: int, h: int, i: int, j: int) {
    x <= i < x + w && y <= j < y + h
  }

  /** Every point of a rectangle with positive size lies in the logical
      frame (an empty rectangle qualifies trivially). */
  predicate RectInFrame(rot: Rotation, x: int, y: int, w: int, h: int) {
    w <= 0 || h <= 0 || (0 <= x && x + w <= Width(rot) && 0 <= y && y + h <= Height(rot))
  }

  /** The inner loop of `clearRect`: column x, rows posY .. endY - 1. */
  function FillColumn(buf: Buffer, rot: Rotation, x: int, posY: int, endY: int, on: bool): Buffer
    decreases endY - posY
  {
    if posY >= endY then buf
    else FillColumn(SetPixel(buf, rot, x, posY, on), rot, x, posY + 1, endY, on)
  }

  /** The outer loop of `clearRect`: columns posX .. endX - 1. */
  function FillColumns(buf: Buffer, rot: Rotation, posX: int, endX: int, y: int, endY: int, on: bool): Buffer
    decreases endX - posX
  {
    if posX >= endX then buf
    else FillColumns(FillColumn(buf, rot, posX, y, endY, on), rot, posX + 1, endX, y, endY, on)
  }

  /** `clearRect(x, y, width, height, on)`: `setPixel` on every point of the
      rectangle, column by column. */
  function ClearRect(buf: Buffer, rot: Rotation, x: int, y: int, w: int, h: int, on: bool): Buffer {
    FillColumns(buf, rot, x, x + w, y, y + h, on)
  }

  /** With no rows to fill, the column loop changes nothing. */
  lemma {:induction false} EmptyColumnsUnchanged(buf: Buffer, rot: Rotation, posX: int, endX: int, y: int, endY: int, on: bool)
    requires endY <= y
    ensures FillColumns(buf, rot, posX, endX, y, endY, on) == buf
    decreases endX - posX
  {
    if posX < endX {
      EmptyColumnsUnchanged(buf, rot, posX + 1, endX, y, endY, on);
    }
  }

  /** A rectangle with no width or no height draws nothing, wherever it
      lies: both loops of `clearRect` are skipped or run empty. */
  lemma ClearRectEmpty(buf: Buffer, rot: Rotation, x: int, y: int, w: int, h: int, on: bool)
    requires w <= 0 || h <= 0
    ensures ClearRect(buf, rot, x, y, w, h, on) == buf
  {
    if h <= 0 {
      EmptyColumnsUnchanged(buf, rot, x, x + w, y, y + h, on);
    }
  }

  /** Effect of the inner loop on one logical pixel. */
  lemma {:induction false} FillColumnAt(buf: Buffer, rot: Rotation, x: int, posY: int, endY: int, on: bool, i: int, j: int)
    requires posY < endY ==> 0 <= x < Width(rot) && 0 <= posY && endY <= Height(rot)
    requires InFrame(rot, i, j)
    ensures LogicalPixel(FillColumn(buf, rot, x, posY, endY, on), rot, i, j)
         == if InRect(x, posY, 1, endY - posY, i, j) then on else LogicalPixel(buf, rot, i, j)
    decreases endY - posY
  {
    if posY < endY {
      var next := SetPixel(buf, rot, x, posY, on);
      SetPixelAt(buf, rot, x, posY, on, i, j);
      FillColumnAt(next, rot, x, posY + 1, endY, on, i, j);
    }
  }

  /** Effect of the outer loop on one logical pixel. */
  lemma {:induction false} FillColumnsAt(buf: Buffer, rot: Rotation, posX: int, endX: int, y: int, endY: int, on: bool, i: int, j: int)
    requires posX < endX && y < endY ==> 0 <= posX && endX <= Width(rot) && 0 <= y && endY <= Height(rot)
    requires InFrame(rot, i, j)
    ensures LogicalPixel(FillColumns(buf, rot, posX, endX, y, endY, on), rot, i, j)
         == if InRect(posX, y, endX - posX, endY - y, i, j) then on else LogicalPixel(buf, rot, i, j)
    decreases endX - posX
  {
    if posX < endX {
      var next := FillColumn(buf, rot, posX, y, endY, on);
      FillColumnAt(buf, rot, posX, y, endY, on, i, j);
      FillColumnsAt(next, rot, posX + 1, endX, y, endY, on, i, j);
    }
  }

  /** The effect of `clearRect` on one physical pixel. */
  lemma ClearRectPixel(buf: Buffer, rot: Rotation, x: int, y: int, w: int, h: int, on: bool, px: int, py: int)
    requires RectInFrame(rot, x, y, w, h) && InPanel(px, py)
    ensures PixelOn(ClearRect(buf, rot, x, y, w, h, on), px, py)
         == if InRect(x, y, w, h, Unmap(rot, px, py).0, Unmap(rot, px, py).1)
            then on else PixelOn(buf, px, py)
  {
    var r := FillColumns(buf, rot, x, x + w, y, y + h, on);
    assert r == ClearRect(buf, rot, x, y, w, h, on);
    RemapOnto(rot, px, py);
    var l := Unmap(rot, px, py);
    assert LogicalPixel(r, rot, l.0, l.1) == PixelOn(r, px, py);
    assert LogicalPixel(buf, rot, l.0, l.1) == PixelOn(buf, px, py);
    FillColumnsAt(buf, rot, x, x + w, y, y + h, on, l.0, l.1);
    assert LogicalPixel(r, rot, l.0, l.1)
        == if InRect(x, y, w, h, l.0, l.1) then on else LogicalPixel(buf, rot, l.0, l.1);
  }

  /** For a rectangle inside the logical frame, `clearRect` sets exactly the
      physical pixels whose logical preimage lies in the rectangle to `on`,
      and every other pixel (hence every other bit of the buffer) keeps its
      value. */
  lemma ClearRectEffect(buf: Buffer, rot: Rotation, x: int, y: int, w: int, h: int, on: bool)
    requires RectInFrame(rot, x, y, w, h)
    ensures forall i, j | InRect(x, y, w, h, i, j) ::
      InFrame(rot, i, j) && LogicalPixel(ClearRect(buf, rot, x, y, w, h, on), rot, i, j) == on
    ensures forall px, py | InPanel(px, py) ::
      PixelOn(ClearRect(buf, rot, x, y, w, h, on), px, py)
        == if InRect(x, y, w, h, Unmap(rot, px, py).0, Unmap(rot, px, py).1)
           then on else PixelOn(buf, px, py)
  {
    forall i, j | InRect(x, y, w, h, i, j)
      ensures InFrame(rot, i, j) && LogicalPixel(ClearRect(buf, rot, x, y, w, h, on), rot, i, j) == on
    {
      FillColumnsAt(buf, rot, x, x + w, y, y + h, on, i, j);
    }
    forall px, py | InPanel(px, py)
      ensures PixelOn(ClearRect(buf, rot, x, y, w, h, on), px, py)
        == if InRect(x, y, w, h, Unmap(rot, px, py).0, Unmap(rot, px, py).1)
           then on else PixelOn(buf, px, py)
    {
      ClearRectPixel(buf, rot, x, y, w, h, on, px, py);
    }
  }

  /** Bit `k` of a row-major, most-significant-bit-first 1-bit raster of
      1024 bytes. */
  predicate RasterBit(pixels: seq<bv8>, k: int)
    requires |pixels| == MaxIndex && 0 <= k < 8 * MaxIndex
  {
    (pixels[k / 8] >> (7 - k % 8)) & 1 == 1
  }

  /** Raster position of logical (x, y) in an image of the logical frame's
      size: its rows are `Width(rot)` pixels long, so 64 under a quarter
      turn and 128 otherwise. */
  function ScanIndex(rot: Rotation, x: int, y: int): int {
    if rot.Quarter() then 64 * y + x else 128 * y + x
  }

  /** Every logical pixel before raster position `upto` shows the raster. */
  ghost predicate Painted(buf: Buffer, rot: Rotation, pixels: seq<bv8>, upto: int)
    requires |pixels| == MaxIndex
  {
    forall x, y | InFrame(rot, x, y) && ScanIndex(rot, x, y) < upto ::
      0 <= ScanIndex(rot, x, y) < 8 * MaxIndex
      && LogicalPixel(buf, rot, x, y) == RasterBit(pixels, ScanIndex(rot, x, y))
  }

  /** Distinct logical pixels have distinct raster positions. */
  lemma ScanIndexInjective(rot: Rotation, x: int, y: int, x0: int, y0: int)
    requires InFrame(rot, x, y) && InFrame(rot, x0, y0)
    requires ScanIndex(rot, x, y) == ScanIndex(rot, x0, y0)
    ensures x == x0 && y == y0
  {
  }

  /** One step of the scan extends the painted prefix by one pixel: the
      logical pixel at raster position `n`. */
  lemma PaintStep(prev: Buffer, rot: Rotation, pixels: seq<bv8>, x0: int, y0: int, n: int, on: bool)
    requires |pixels| == MaxIndex
    requires InFrame(rot, x0, y0) && n == ScanIndex(rot, x0, y0)
    requires Painted(prev, rot, pixels, n)
    requires on == RasterBit(pixels, n)
    ensures Painted(SetPixel(prev, rot, x0, y0, on), rot, pixels, n + 1)
  {
    var r := SetPixel(prev, rot, x0, y0, on);
    forall x, y | InFrame(rot, x, y) && ScanIndex(rot, x, y) < n + 1
      ensures 0 <= ScanIndex(rot, x, y) < 8 * MaxIndex
      ensures LogicalPixel(r, rot, x, y) == RasterBit(pixels, ScanIndex(rot, x, y))
    {
      SetPixelAt(prev, rot, x0, y0, on, x, y);
      if x == x0 && y == y0 {
        assert LogicalPixel(r, rot, x, y) == on;
      } else {
        if ScanIndex(rot, x, y) == n {
          ScanIndexInjective(rot, x, y, x0, y0);
        }
        assert LogicalPixel(r, rot, x, y) == LogicalPixel(prev, rot, x, y);
      }
    }
  }

  /** The bit the scan reads at position `n` is bit `7 - n % 8` of byte
      `n / 8`, compared as `& 1` greater than zero. */
  lemma RasterBitOfByte(pixels: seq<bv8>, n: int, bit: int)
    requires |pixels| == MaxIndex && 0 <= n < 8 * MaxIndex && 0 <= bit < 8 && n % 8 == bit
    ensures RasterBit(pixels, n) == ((pixels[n / 8] >> (7 - bit)) & 1 > 0)
  {
  }

  /** The scan of raster byte `posX` of row `posY` follows the logical
      frame: the byte's eight pixels are in the frame and `index` is the
      raster position of the first. */
  predicate FollowsFrame(rot: Rotation, posX: int, posY: int, index: int) {
    0 <= posX < Width(rot) / 8 && 0 <= posY < Height(rot) && index == ScanIndex(rot, 8 * posX, posY)
  }

  /** Bit `bit` of a byte the scan follows the frame at is a pixel of the
      frame, at raster position `index + bit`. */
  lemma ScanPosition(rot: Rotation, posX: int, posY: int, bit: int, index: int)
    requires FollowsFrame(rot, posX, posY, index) && index % 8 == 0 && 0 <= bit < 8
    ensures InFrame(rot, 8 * posX + bit, posY)
    ensures index + bit == ScanIndex(rot, 8 * posX + bit, posY)
    ensures 0 <= index + bit < 8 * MaxIndex && (index + bit) % 8 == bit
  {
  }

  /** One iteration of the innermost loop paints raster position `n`, the
      bit `bit` of the byte at `index`, into column `x` when the scan
      follows the frame. */
  lemma ScanStep(r: Buffer, rot: Rotation, pixels: seq<bv8>, posX: int, posY: int, bit: int, index: int, x: int, n: int, on: bool)
    requires |pixels| == MaxIndex
    requires FollowsFrame(rot, posX, posY, index) && index % 8 == 0 && 0 <= bit < 8
    requires n == index + bit && x == 8 * posX + bit
    requires Painted(r, rot, pixels, n)
    requires 0 <= n < 8 * MaxIndex && on == ((pixels[n / 8] >> (7 - bit)) & 1 > 0)
    ensures Painted(SetPixel(r, rot, x, posY, on), rot, pixels, n + 1)
  {
    ScanPosition(rot, posX, posY, bit, index);
    RasterBitOfByte(pixels, n, bit);
    PaintStep(r, rot, pixels, x, posY, n, on);
  }

  /** Under a 90 degree turn the as-written scan, having passed raster
      position 64, has left raster bit 64 at logical pixel (56, 0), whose
      own raster position is 56. */
  ghost predicate StrayAt56(buf: Buffer, rot: Rotation, pixels: seq<bv8>, upto: int)
    requires |pixels| == MaxIndex
  {
    rot == Deg90 && upto > 64 ==> LogicalPixel(buf, Deg90, 56, 0) == RasterBit(pixels, 64)
  }

  /** The as-written scan writes position (64, 0) to the physical pixel of
      logical (56, 0): x = 64 is outside the 64-pixel-wide frame, and its
      physical row -1 aliases onto row 7. */
  lemma QuarterScanAliases(buf: Buffer, on: bool)
    ensures !InFrame(Deg90, 64, 0) && InFrame(Deg90, 56, 0)
    ensures SetPixel(buf, Deg90, 64, 0, on) == SetPixel(buf, Deg90, 56, 0, on)
  {
    NegativeRowAliases(buf, 0, -1, on);
  }

  /** No as-written scan write after position 64 touches the physical
      pixel (0, 7) under a 90 degree turn. */
  lemma LaterScanMisses(buf: Buffer, x: int, y: int, on: bool)
    requires 0 <= x < DisplayWidth && 0 <= y < DisplayHeight && 128 * y + x > 64
    ensures PixelOn(SetPixel(buf, Deg90, x, y, on), 0, 7) == PixelOn(buf, 0, 7)
  {
    var p := Remap(Deg90, x, y);
    UpdateBit(buf, p.0, p.1, on, 0, 7);
  }

  /** One step of the as-written scan keeps `StrayAt56`. */
  lemma StrayStep(r: Buffer, rot: Rotation, pixels: seq<bv8>, x: int, y: int, n: int, on: bool)
    requires |pixels| == MaxIndex
    requires 0 <= x < DisplayWidth && 0 <= y < DisplayHeight && n == 128 * y + x
    requires StrayAt56(r, rot, pixels, n)
    requires 0 <= n < 8 * MaxIndex && on == RasterBit(pixels, n)
    ensures StrayAt56(SetPixel(r, rot, x, y, on), rot, pixels, n + 1)
  {
    if rot == Deg90 {
      if n == 64 {
        QuarterScanAliases(r, on);
        SetPixelAt(r, Deg90, 56, 0, on, 56, 0);
      } else if n > 64 {
        LaterScanMisses(r, x, y, on);
      }
    }
  }

  /** Raster byte `posX` of row `posY` at position `index`, as the
      as-written scan visits it: 64 rows of 16 bytes. */
  predicate AsWrittenByte(posX: int, posY: int, index: int) {
    0 <= posX < DisplayWidth / 8 && 0 <= posY < DisplayHeight && index == 128 * posY + 8 * posX
  }

  /** One iteration of the innermost loop, as the as-written scan visits
      it, keeps `StrayAt56`. */
  lemma StrayScanStep(r: Buffer, rot: Rotation, pixels: seq<bv8>, posX: int, posY: int, bit: int, index: int, x: int, n: int, on: bool)
    requires |pixels| == MaxIndex
    requires AsWrittenByte(posX, posY, index) && 0 <= bit < 8
    requires n == index + bit && x == 8 * posX + bit
    requires StrayAt56(r, rot, pixels, n)
    requires on == ((pixels[n / 8] >> (7 - bit)) & 1 > 0)
    ensures StrayAt56(SetPixel(r, rot, x, posY, on), rot, pixels, n + 1)
  {
    AsWrittenPosition(posX, posY, bit, index);
    RasterBitOfByte(pixels, n, bit);
    StrayStep(r, rot, pixels, x, posY, n, on);
  }

  /** Bit `bit` of a byte the as-written scan visits is raster position
      `index + bit`, in column `8 * posX + bit` of a 128-pixel row. */
  lemma AsWrittenPosition(posX: int, posY: int, bit: int, index: int)
    requires AsWrittenByte(posX, posY, index) && 0 <= bit < 8
    ensures 0 <= index + bit < 8 * MaxIndex && (index + bit) % 8 == bit
    ensures index + bit == 128 * posY + (8 * posX + bit)
  {
    var q := 16 * posY + posX;
    assert index + bit == 8 * q + bit;
    EightsPlace(q, bit);
  }

  /** Division by 8 of `8 * q + r` with a digit `r`. */
  lemma EightsPlace(q: int, r: int)
    requires 0 <= r < 8
    ensures (8 * q + r) % 8 == r && (8 * q + r) / 8 == q
  {
  }

  /** The innermost loop of `drawImage`: the eight bits of the raster byte
      at position `index`, most significant first, go to `setPixel` at
      columns `8 * posX` to `8 * posX + 7` of row `posY`. */
  method DrawByte(buf: Buffer, rot: Rotation, pixels: seq<bv8>, posX: int, posY: int, index: int) returns (r: Buffer)
    requires |pixels| == MaxIndex
    requires 0 <= index && index + 8 <= 8 * MaxIndex && index % 8 == 0
    ensures FollowsFrame(rot, posX, posY, index) && Painted(buf, rot, pixels, index) ==>
      Painted(r, rot, pixels, index + 8)
    ensures AsWrittenByte(posX, posY, index) && StrayAt56(buf, rot, pixels, index) ==>
      StrayAt56(r, rot, pixels, index + 8)
  {
    r := buf;
    ghost var follows := FollowsFrame(rot, posX, posY, index) && Painted(buf, rot, pixels, index);
    ghost var stray := AsWrittenByte(posX, posY, index) && StrayAt56(buf, rot, pixels, index);
    var bit := 0;
    while bit < 8
      invariant 0 <= bit <= 8
      invariant follows ==> Painted(r, rot, pixels, index + bit)
      invariant stray ==> StrayAt56(r, rot, pixels, index + bit)
    {
      var x, pixelval := 8 * posX + bit, (pixels[(index + bit) / 8] >> (7 - bit)) & 1;
      if follows {
        ScanStep(r, rot, pixels, posX, posY, bit, index, x, index + bit, pixelval > 0);
      }
      if stray {
        StrayScanStep(r, rot, pixels, posX, posY, bit, index, x, index + bit, pixelval > 0);
      }
      r := SetPixel(r, rot, x, posY, pixelval > 0);
      bit := bit + 1;
    }
  }

  /** A row of the logical frame is `Width(rot) / 8` whole bytes, and the
      next row starts right after it; the rows cover all 8192 bits. */
  lemma RowLayout(rot: Rotation, posY: int)
    ensures 8 * (Width(rot) / 8) == Width(rot)
    ensures ScanIndex(rot, 0, posY) + Width(rot) == ScanIndex(rot, 0, posY + 1)
    ensures ScanIndex(rot, 0, Height(rot)) == 8 * MaxIndex
  {
  }

  /** Once the whole raster is painted, every logical pixel shows it. */
  lemma PaintedFrame(r: Buffer, rot: Rotation, pixels: seq<bv8>)
    requires |pixels| == MaxIndex && Painted(r, rot, pixels, 8 * MaxIndex)
    ensures forall x, y | InFrame(rot, x, y) ::
      0 <= ScanIndex(rot, x, y) < 8 * MaxIndex
      && LogicalPixel(r, rot, x, y) == RasterBit(pixels, ScanIndex(rot, x, y))
  {
    forall x, y | InFrame(rot, x, y)
      ensures 0 <= ScanIndex(rot, x, y) < 8 * MaxIndex
      ensures LogicalPixel(r, rot, x, y) == RasterBit(pixels, ScanIndex(rot, x, y))
    {
    }
  }

  /** The middle loop of `drawImage`: `count` raster bytes of row `posY`,
      starting at raster position `index`. When the row is a row of the
      logical frame and `count` its width in bytes, the whole row ends up
      painted. */
  method DrawRow(buf: Buffer, rot: Rotation, pixels: seq<bv8>, posY: int, count: int, index: int) returns (r: Buffer)
    requires |pixels| == MaxIndex && 0 <= count
    requires 0 <= index && index + 8 * count <= 8 * MaxIndex && index % 8 == 0
    ensures count == Width(rot) / 8 && 0 <= posY < Height(rot) && index == ScanIndex(rot, 0, posY)
            && Painted(buf, rot, pixels, index) ==>
      Painted(r, rot, pixels, index + 8 * count)
    ensures count == DisplayWidth / 8 && 0 <= posY < DisplayHeight && index == 128 * posY
            && StrayAt56(buf, rot, pixels, index) ==>
      StrayAt56(r, rot, pixels, index + 8 * count)
  {
    r := buf;
    ghost var follows := count == Width(rot) / 8 && 0 <= posY < Height(rot) && index == ScanIndex(rot, 0, posY)
                         && Painted(buf, rot, pixels, index);
    ghost var stray := count == DisplayWidth / 8 && 0 <= posY < DisplayHeight && index == 128 * posY
                       && StrayAt56(buf, rot, pixels, index);
    var posX, at := 0, index;
    while posX < count
      invariant 0 <= posX <= count && at == index + 8 * posX
      invariant follows ==> at == ScanIndex(rot, 8 * posX, posY) && Painted(r, rot, pixels, at)
      invariant stray ==> StrayAt56(r, rot, pixels, at)
    {
      r := DrawByte(r, rot, pixels, posX, posY, at);
      at := at + 8;
      posX := posX + 1;
    }
  }

  /** `drawImage` as written: 64 rows of 16 bytes, whatever the rotation.
      At 0 and 180 degrees these are the logical frame's rows and every
      logical pixel ends up showing the raster. */
  method DrawImage(buf: Buffer, rot: Rotation, pixels: seq<bv8>) returns (r: Buffer)
    requires |pixels| == MaxIndex
    ensures !rot.Quarter() ==>
      forall x, y | InFrame(rot, x, y) :: LogicalPixel(r, rot, x, y) == RasterBit(pixels, 128 * y + x)
    ensures rot == Deg90 ==> LogicalPixel(r, Deg90, 56, 0) == RasterBit(pixels, 64)
  {
    r := buf;
    var index := 0;
    var posY := 0;
    while posY < DisplayHeight
      invariant 0 <= posY <= DisplayHeight
      invariant index == 128 * posY
      invariant !rot.Quarter() ==> Painted(r, rot, pixels, index)
      invariant StrayAt56(r, rot, pixels, index)
    {
      RowLayout(rot, posY);
      r := DrawRow(r, rot, pixels, posY, DisplayWidth / 8, index);
      index := index + DisplayWidth;
      posY := posY + 1;
    }
    if !rot.Quarter() {
      RowLayout(rot, DisplayHeight);
      PaintedFrame(r, rot, pixels);
    }
  }

  /** A concrete input the as-written scan misdraws under a 90 degree
      turn: the image has only its pixel (56, 0) set, yet after drawing on
      a clear panel that logical pixel is off, because the write for the
      off-frame point (64, 0) came later and landed on it. */
  method QuarterTurnCounterexample() returns (pixels: seq<bv8>, r: Buffer)
    ensures |pixels| == MaxIndex && InFrame(Deg90, 56, 0)
    ensures RasterBit(pixels, ScanIndex(Deg90, 56, 0))
    ensures !LogicalPixel(r, Deg90, 56, 0)
  {
    pixels := seq(MaxIndex, i => if i == 7 then 0x80 else 0x00);
    assert pixels[7] == 0x80 && pixels[8] == 0x00;
    assert RasterBit(pixels, 56) && !RasterBit(pixels, 64);
    r := DrawImage(Clear(), Deg90, pixels);
  }

  /** `drawImage` as evidently intended: the scan covers the logical
      frame, `getHeight()` rows of `getWidth() / 8` bytes, matching the
      `getWidth()` x `getHeight()` image the raster is taken from. Every
      logical pixel ends up showing the raster, for every rotation. */
  method DrawImageInFrame(buf: Buffer, rot: Rotation, pixels: seq<bv8>) returns (r: Buffer)
    requires |pixels| == MaxIndex
    ensures forall x, y | InFrame(rot, x, y) ::
      0 <= ScanIndex(rot, x, y) < 8 * MaxIndex
      && LogicalPixel(r, rot, x, y) == RasterBit(pixels, ScanIndex(rot, x, y))
  {
    r := buf;
    var index := 0;
    var posY := 0;
    while posY < Height(rot)
      invariant 0 <= posY <= Height(rot)
      invariant index == ScanIndex(rot, 0, posY)
      invariant Painted(r, rot, pixels, index)
    {
      RowLayout(rot, posY);
      r := DrawRow(r, rot, pixels, posY, Width(rot) / 8, index);
      index := index + Width(rot);
      posY := posY + 1;
    }
    RowLayout(rot, posY);
    PaintedFrame(r, rot, pixels);
  }
}

=== FILE: framebuffer.dfy ===
/** The 1-bit-per-pixel framebuffer: 1024 bytes, each holding eight
    vertically stacked pixels of one column of one page. */
module FrameBuffer {
  import opened Panel

  /** The driver's `imageBuffer`: always exactly `MaxIndex` bytes. */
  type Buffer = s: seq<bv8> | |s| == MaxIndex witness seq(1024, _ => 0)

  /** The single-bit mask `1 << b`. */
  function Mask(b: nat): bv8
    requires b < 8
  {
    (1 as bv8) << b
  }

  predicate BitSet(v: bv8, b: nat)
    requires b < 8
  {
    v & Mask(b) != 0
  }

  /** The byte `v` with bit `k` set (OR with the mask) or cleared (AND with
      its complement); the other seven bits are kept. */
  function WithBit(v: bv8, k: nat, on: bool): (w: bv8)
    requires k < 8
    ensures forall b: nat | b < 8 :: BitSet(w, b) == if b == k then on else BitSet(v, b)
  {
    WithBitEffect(v, k, on);
    if on then v | Mask(k) else v & !Mask(k)
  }

  lemma WithBitEffect(v: bv8, k: nat, on: bool)
    requires k < 8
    ensures forall b: nat | b < 8 ::
      BitSet(if on then v | Mask(k) else v & !Mask(k), b) == if b == k then on else BitSet(v, b)
  {
    var w := if on then v | Mask(k) else v & !Mask(k);
    forall b: nat | b < 8
      ensures BitSet(w, b) == if b == k then on else BitSet(v, b)
    {
      MaskBit(v, k, b);
    }
  }

  /** Setting or clearing bit `k` affects bit `b` exactly when `b == k`. */
  lemma MaskBit(v: bv8, k: nat, b: nat)
    requires k < 8 && b < 8
    ensures ((v | Mask(k)) & Mask(b) != 0) == (b == k || v & Mask(b) != 0)
    ensures ((v & !Mask(k)) & Mask(b) != 0) == (b != k && v & Mask(b) != 0)
  {
  }

  /** Linear byte index the driver computes for a pixel write; `y / 8` in
      Java truncates toward zero. No bounds are assumed. */
  function Pos(x: int, y: int): int {
    x + 128 * JDiv(y, 8)
  }

  /** Bit within the byte: Java's `y & 7`, which for two's-complement
      integers is the non-negative remainder modulo 8. */
  function Row(y: int): nat {
    y % 8
  }

  /** The driver's only guard on a pixel write. */
  predicate Lands(x: int, y: int) {
    0 <= Pos(x, y) < MaxIndex
  }

  /** Read back the pixel at panel position (px, py). */
  predicate PixelOn(buf: Buffer, px: int, py: int)
    requires InPanel(px, py)
  {
    BitSet(buf[px + 128 * (py / 8)], py % 8)
  }

  /** `clear`: every byte zero, so no pixel is lit. */
  function Clear(): (r: Buffer)
    ensures forall i | 0 <= i < MaxIndex :: r[i] == 0
    ensures forall px, py | InPanel(px, py) :: !PixelOn(r, px, py)
  {
    seq(MaxIndex, _ => 0)
  }

  /** `updateImageBuffer`: sets (OR) or clears (AND with the complement)
      bit `y & 7` of byte `x + (y / 8) * 128`, when that index is inside the
      buffer; otherwise the write is dropped. */
  function UpdateImageBuffer(buf: Buffer, x: int, y: int, on: bool): (r: Buffer)
    ensures Lands(x, y) ==>
      && (forall i | 0 <= i < MaxIndex && i != Pos(x, y) :: r[i] == buf[i])
      && (forall b: nat | b < 8 ::
            BitSet(r[Pos(x, y)], b) == if b == Row(y) then on else BitSet(buf[Pos(x, y)], b))
    ensures !Lands(x, y) ==> r == buf
  {
    var pos := Pos(x, y);
    if 0 <= pos < MaxIndex then
      buf[pos := WithBit(buf[pos], Row(y), on)]
    else
      buf
  }

  /** Two bytes that agree on all eight bits are equal. */
  lemma ByteExtensional(v: bv8, w: bv8)
    requires forall b: nat | b < 8 :: BitSet(v, b) == BitSet(w, b)
    ensures v == w
  {
    MaskValues();
    assert BitSet(v, 0) == BitSet(w, 0) && BitSet(v, 1) == BitSet(w, 1);
    assert BitSet(v, 2) == BitSet(w, 2) && BitSet(v, 3) == BitSet(w, 3);
    assert BitSet(v, 4) == BitSet(w, 4) && BitSet(v, 5) == BitSet(w, 5);
    assert BitSet(v, 6) == BitSet(w, 6) && BitSet(v, 7) == BitSet(w, 7);
    LiteralBitsEqual(v, w);
  }

  lemma MaskValues()
    ensures Mask(0) == 0x01 && Mask(1) == 0x02 && Mask(2) == 0x04 && Mask(3) == 0x08
    ensures Mask(4) == 0x10 && Mask(5) == 0x20 && Mask(6) == 0x40 && Mask(7) == 0x80
  {
  }

  lemma LiteralBitsEqual(v: bv8, w: bv8)
    requires (v & 0x01 != 0) == (w & 0x01 != 0) && (v & 0x02 != 0) == (w & 0x02 != 0)
    requires (v & 0x04 != 0) == (w & 0x04 != 0) && (v & 0x08 != 0) == (w & 0x08 != 0)
    requires (v & 0x10 != 0) == (w & 0x10 != 0) && (v & 0x20 != 0) == (w & 0x20 != 0)
    requires (v & 0x40 != 0) == (w & 0x40 != 0) && (v & 0x80 != 0) == (w & 0x80 != 0)
    ensures v == w
  {
  }

  /** Every (byte, bit) of the buffer is exactly one panel pixel. */
  lemma PixelOfBit(i: int, b: nat)
    requires 0 <= i < MaxIndex && b < 8
    ensures var px, py := i % DisplayWidth, (i / DisplayWidth) * 8 + b;
      InPanel(px, py) && px + 128 * (py / 8) == i && py % 8 == b
  {
    var py := (i / DisplayWidth) * 8 + b;
    assert py / 8 == i / DisplayWidth;
  }

  /** Pixel address is injective on the panel. */
  lemma PixelAddressInjective(x1: int, y1: int, x2: int, y2: int)
    requires InPanel(x1, y1) && InPanel(x2, y2)
    requires x1 + 128 * (y1 / 8) == x2 + 128 * (y2 / 8)
    requires y1 % 8 == y2 % 8
    ensures x1 == x2 && y1 == y2
  {
    assert y1 / 8 == y2 / 8;
  }

  /** A buffer is determined by its pixels: the panel covers every bit. */
  lemma PixelsDetermineBuffer(a: Buffer, c: Buffer)
    requires forall px, py | InPanel(px, py) :: PixelOn(a, px, py) == PixelOn(c, px, py)
    ensures a == c
  {
    forall i | 0 <= i < MaxIndex
      ensures a[i] == c[i]
    {
      forall b: nat | b < 8
        ensures BitSet(a[i], b) == BitSet(c[i], b)
      {
        PixelOfBit(i, b);
        var px, py := i % DisplayWidth, (i / DisplayWidth) * 8 + b;
        assert PixelOn(a, px, py) == PixelOn(c, px, py);
      }
      ByteExtensional(a[i], c[i]);
    }
  }

  /** On the panel a write always lands, and reading back gives `on` at the
      written pixel and the old value everywhere else. */
  lemma UpdateReadBack(buf: Buffer, x: int, y: int, on: bool)
    requires InPanel(x, y)
    ensures Lands(x, y)
    ensures forall px, py | InPanel(px, py) ::
      PixelOn(UpdateImageBuffer(buf, x, y, on), px, py)
        == if px == x && py == y then on else PixelOn(buf, px, py)
  {
    var r := UpdateImageBuffer(buf, x, y, on);
    forall px, py | InPanel(px, py)
      ensures PixelOn(r, px, py) == if px == x && py == y then on else PixelOn(buf, px, py)
    {
      if px + 128 * (py / 8) == Pos(x, y) && py % 8 == Row(y) {
        PixelAddressInjective(px, py, x, y);
      }
    }
  }

  /** A write that lands always acts on some real panel pixel: the one
      whose address is the computed index and bit. Off-panel coordinates
      that pass the index guard therefore alias onto visible pixels. */
  lemma LandedWriteAliases(buf: Buffer, x: int, y: int, on: bool)
    requires Lands(x, y)
    ensures var px, py := Pos(x, y) % DisplayWidth, (Pos(x, y) / DisplayWidth) * 8 + Row(y);
      && InPanel(px, py)
      && UpdateImageBuffer(buf, x, y, on) == UpdateImageBuffer(buf, px, py, on)
  {
    PixelOfBit(Pos(x, y), Row(y));
  }

  /** A column past the right edge spills into the same column of the next
      page: (x + 128, y) is the pixel (x, y + 8). This fails only for rows
      -7 .. -1, where `y / 8` and `(y + 8) / 8` both truncate to 0. */
  lemma RightEdgeSpills(buf: Buffer, x: int, y: int, on: bool)
    requires !(-8 < y < 0)
    ensures UpdateImageBuffer(buf, x + DisplayWidth, y, on) == UpdateImageBuffer(buf, x, y + 8, on)
  {
  }

  /** Rows -7 .. -1 truncate to page 0 and reuse bits 1 .. 7 of it. */
  lemma NegativeRowAliases(buf: Buffer, x: int, y: int, on: bool)
    requires -8 < y < 0
    ensures UpdateImageBuffer(buf, x, y, on) == UpdateImageBuffer(buf, x, y + 8, on)
  {
  }

  /** A concrete instance of the aliasing: writing row -1 of column 0 lights
      the visible pixel (0, 7). */
  lemma RowMinusOneLightsRowSeven()
    ensures PixelOn(UpdateImageBuffer(Clear(), 0, -1, true), 0, 7)
  {
    NegativeRowAliases(Clear(), 0, -1, true);
    UpdateReadBack(Clear(), 0, 7, true);
  }

  /** Repeating a write changes nothing more. */
  lemma UpdateIdempotent(buf: Buffer, x: int, y: int, on: bool)
    ensures var r := UpdateImageBuffer(buf, x, y, on);
      UpdateImageBuffer(r, x, y, on) == r
  {
    var r := UpdateImageBuffer(buf, x, y, on);
    var r2 := UpdateImageBuffer(r, x, y, on);
    if Lands(x, y) {
      ByteExtensional(r2[Pos(x, y)], r[Pos(x, y)]);
      assert r2 == r;
    }
  }

  /** Of two writes to the same coordinates, the last one wins. */
  lemma UpdateLastWins(buf: Buffer, x: int, y: int, first: bool, second: bool)
    ensures UpdateImageBuffer(UpdateImageBuffer(buf, x, y, first), x, y, second)
         == UpdateImageBuffer(buf, x, y, second)
  {
    var a := UpdateImageBuffer(UpdateImageBuffer(buf, x, y, first), x, y, second);
    var c := UpdateImageBuffer(buf, x, y, second);
    if Lands(x, y) {
      ByteExtensional(a[Pos(x, y)], c[Pos(x, y)]);
      assert a == c;
    }
  }

  /** The effect of one write on one (byte, bit) of the buffer. */
  lemma UpdateBit(buf: Buffer, x: int, y: int, on: bool, i: int, b: nat)
    requires 0 <= i < MaxIndex && b < 8
    ensures BitSet(UpdateImageBuffer(buf, x, y, on)[i], b)
         == if Lands(x, y) && i == Pos(x, y) && b == Row(y) then on else BitSet(buf[i], b)
  {
  }

  /** Two writes in either order agree on every (byte, bit) when they have
      the same colour or different targets. */
  lemma CommuteAt(buf: Buffer, x1: int, y1: int, on1: bool, x2: int, y2: int, on2: bool, i: int)
    requires on1 == on2 || Pos(x1, y1) != Pos(x2, y2) || Row(y1) != Row(y2)
    requires 0 <= i < MaxIndex
    ensures UpdateImageBuffer(UpdateImageBuffer(buf, x1, y1, on1), x2, y2, on2)[i]
         == UpdateImageBuffer(UpdateImageBuffer(buf, x2, y2, on2), x1, y1, on1)[i]
  {
    var m1 := UpdateImageBuffer(buf, x1, y1, on1);
    var m2 := UpdateImageBuffer(buf, x2, y2, on2);
    var a := UpdateImageBuffer(m1, x2, y2, on2);
    var c := UpdateImageBuffer(m2, x1, y1, on1);
    forall b: nat | b < 8
      ensures BitSet(a[i], b) == BitSet(c[i], b)
    {
      UpdateBit(buf, x1, y1, on1, i, b);
      UpdateBit(buf, x2, y2, on2, i, b);
      UpdateBit(m1, x2, y2, on2, i, b);
      UpdateBit(m2, x1, y1, on1, i, b);
    }
    ByteExtensional(a[i], c[i]);
  }

  /** Writes of the same colour commute, and so do writes to different
      (byte, bit) targets: the final buffer does not depend on the order. */
  lemma UpdateCommutes(buf: Buffer, x1: int, y1: int, on1: bool, x2: int, y2: int, on2: bool)
    requires on1 == on2 || Pos(x1, y1) != Pos(x2, y2) || Row(y1) != Row(y2)
    ensures UpdateImageBuffer(UpdateImageBuffer(buf, x1, y1, on1), x2, y2, on2)
         == UpdateImageBuffer(UpdateImageBuffer(buf, x2, y2, on2), x1, y1, on1)
  {
    var a := UpdateImageBuffer(UpdateImageBuffer(buf, x1, y1, on1), x2, y2, on2);
    var c := UpdateImageBuffer(UpdateImageBuffer(buf, x2, y2, on2), x1, y1, on1);
    forall i | 0 <= i < MaxIndex
      ensures a[i] == c[i]
    {
      CommuteAt(buf, x1, y1, on1, x2, y2, on2, i);
    }
  }
}

=== FILE: panel.dfy ===
/** Fixed geometry of the 128x64 panel, Java integer division, and the
    rotation transform that maps logical (caller) coordinates onto the
    native panel. */
module Panel {

  /** Native panel size; the driver supports no other. */
  const DisplayWidth: int := 128
  const DisplayHeight: int := 64

  /** Number of framebuffer bytes: eight rows of pixels share one byte,
      so the panel has `DisplayHeight / 8` pages of `DisplayWidth` bytes
      (see `PagesTileBuffer`). */
  const MaxIndex: int := 1024

  lemma PagesTileBuffer()
    ensures MaxIndex == (DisplayHeight / 8) * DisplayWidth
  {
  }

  /** Java's `/` on `int`: the quotient is truncated toward zero, so the
      remainder takes the sign of the dividend (Dafny's `/` is Euclidean). */
  function JDiv(a: int, b: int): (q: int)
    requires b > 0
    ensures a >= 0 ==> 0 <= a - q * b < b
    ensures a < 0 ==> -b < a - q * b <= 0
  {
    if a >= 0 then a / b else -((-a) / b)
  }

  /** Clockwise mounting angle of the panel, fixed at construction. */
  datatype Rotation = Deg0 | Deg90 | Deg180 | Deg270 {
    predicate Quarter() { Deg90? || Deg270? }
  }

  /** Logical width as reported to callers: the native dimensions swap for
      a quarter turn (see `FrameDimensions`). */
  function Width(rot: Rotation): int {
    if rot.Quarter() then DisplayHeight else DisplayWidth
  }

  /** Logical height: the native height, or the native width under a
      quarter turn. */
  function Height(rot: Rotation): int {
    if rot.Quarter() then DisplayWidth else DisplayHeight
  }

  predicate InPanel(px: int, py: int) {
    0 <= px < DisplayWidth && 0 <= py < DisplayHeight
  }

  predicate InFrame(rot: Rotation, x: int, y: int) {
    0 <= x < Width(rot) && 0 <= y < Height(rot)
  }

  /** Physical to logical coordinates: the inverse of `Remap`. */
  function Unmap(rot: Rotation, px: int, py: int): (int, int) {
    match rot
    case Deg0 => (px, py)
    case Deg90 => (Width(rot) - py - 1, px)
    case Deg180 => (Width(rot) - px - 1, Height(rot) - py - 1)
    case Deg270 => (py, Height(rot) - px - 1)
  }

  /** The physical coordinates `setPixel` hands to the framebuffer for the
      logical point (x, y). Defined for every integer point, since the
      driver applies it before any bounds check. It is a bijection of the
      integer plane that carries the logical frame exactly onto the panel. */
  function Remap(rot: Rotation, x: int, y: int): (p: (int, int))
    ensures Unmap(rot, p.0, p.1) == (x, y)
    ensures InFrame(rot, x, y) <==> InPanel(p.0, p.1)
  {
    match rot
    case Deg0 => (x, y)
    case Deg90 => (y, Width(rot) - x - 1)
    case Deg180 => (Width(rot) - x - 1, Height(rot) - y - 1)
    case Deg270 => (Height(rot) - y - 1, x)
  }

  /** Every panel pixel is the image of exactly one logical point, and that
      point lies in the logical frame. */
  lemma RemapOnto(rot: Rotation, px: int, py: int)
    requires InPanel(px, py)
    ensures var l := Unmap(rot, px, py);
      InFrame(rot, l.0, l.1) && Remap(rot, l.0, l.1) == (px, py)
  {
  }

  /** Distinct logical points never land on the same physical point. */
  lemma RemapInjective(rot: Rotation, x1: int, y1: int, x2: int, y2: int)
    requires Remap(rot, x1, y1) == Remap(rot, x2, y2)
    ensures x1 == x2 && y1 == y2
  {
    assert Unmap(rot, Remap(rot, x1, y1).0, Remap(rot, x1, y1).1) == (x1, y1);
  }

  /** Turning by 180 degrees twice is the identity. */
  lemma HalfTurnInvolution(x: int, y: int)
    ensures var p := Remap(Deg180, x, y); Remap(Deg180, p.0, p.1) == (x, y)
  {
  }

  /** The logical frame always covers the panel exactly: the dimensions are
      the native ones, swapped for a quarter turn. */
  lemma FrameDimensions(rot: Rotation)
    ensures Width(rot) * Height(rot) == DisplayWidth * DisplayHeight
    ensures rot.Quarter() <==> (Width(rot), Height(rot)) == (DisplayHeight, DisplayWidth)
    ensures !rot.Quarter() <==> (Width(rot), Height(rot)) == (DisplayWidth, DisplayHeight)
  {
  }
}

=== FILE: protocol.dfy ===
/** The bus traffic of `init`, `update` and `writeBytes`, as pure traces of
    bus events. */
module Protocol {
  import opened Wrappers
  import opened Panel
  import opened FrameBuffer
  import opened Commands

  /** Control byte selecting the command stream, and the data stream. */
  const CommandRegister: bv8 := 0x00
  const DataRegister: bv8 := 0x40

  /** One bus transaction: `device.writeRegister(register, value)`, or a raw
      `device.write(data)` whose first byte is the control byte. */
  datatype Event =
    | WriteRegister(register: bv8, value: bv8)
    | WriteRaw(data: seq<bv8>)

  /** The bytes of a transaction as they appear on the wire: a register
      write is the register byte followed by the value. */
  function Wire(e: Event): seq<bv8> {
    match e
    case WriteRegister(r, v) => [r, v]
    case WriteRaw(d) => d
  }

  /** What one transaction contributes to the stream selected by control
      byte `reg`: the bytes after the control byte, if it is `reg`. */
  function Payload(e: Event, reg: bv8): seq<bv8> {
    var w := Wire(e);
    if |w| > 0 && w[0] == reg then w[1..] else []
  }

  /** The bytes of a trace that reach the stream selected by `reg`. */
  function StreamBytes(t: seq<Event>, reg: bv8): seq<bv8> {
    if |t| == 0 then [] else Payload(t[0], reg) + StreamBytes(t[1..], reg)
  }

  /** The controller's command stream (control byte 0x00). */
  function CommandBytes(t: seq<Event>): seq<bv8> {
    StreamBytes(t, CommandRegister)
  }

  /** The bytes that reach display RAM (control byte 0x40). */
  function DataBytes(t: seq<Event>): seq<bv8> {
    StreamBytes(t, DataRegister)
  }

  lemma {:induction false} StreamAppend(a: seq<Event>, b: seq<Event>, reg: bv8)
    ensures StreamBytes(a + b, reg) == StreamBytes(a, reg) + StreamBytes(b, reg)
    decreases |a|
  {
    if |a| == 0 {
      assert a + b == b;
    } else {
      var ab := a + b;
      assert ab[0] == a[0] && ab[1..] == a[1..] + b;
      StreamAppend(a[1..], b, reg);
      assert StreamBytes(ab, reg) == Payload(a[0], reg) + StreamBytes(a[1..] + b, reg);
    }
  }

  /** Concatenating traces concatenates both streams. */
  lemma StreamsAppend(a: seq<Event>, b: seq<Event>)
    ensures CommandBytes(a + b) == CommandBytes(a) + CommandBytes(b)
    ensures DataBytes(a + b) == DataBytes(a) + DataBytes(b)
  {
    StreamAppend(a, b, CommandRegister);
    StreamAppend(a, b, DataRegister);
  }

  /** `writeCommand` for each byte in turn. */
  function CommandWrites(bytes: seq<bv8>): (t: seq<Event>)
    ensures |t| == |bytes|
    ensures forall k | 0 <= k < |t| :: t[k] == WriteRegister(CommandRegister, bytes[k])
  {
    if |bytes| == 0 then [] else [WriteRegister(CommandRegister, bytes[0])] + CommandWrites(bytes[1..])
  }

  lemma {:induction false} CommandWritesStreams(bytes: seq<bv8>)
    ensures CommandBytes(CommandWrites(bytes)) == bytes
    ensures DataBytes(CommandWrites(bytes)) == []
    decreases |bytes|
  {
    if |bytes| > 0 {
      var t := CommandWrites(bytes);
      assert t[1..] == CommandWrites(bytes[1..]);
      CommandWritesStreams(bytes[1..]);
    }
  }

  /** Argument of the memory-mode command: 0x02 selects page addressing,
      0x00 horizontal addressing. */
  function ModeByte(pageMode: bool): bv8 {
    if pageMode then 0x02 else 0x00
  }

  /** The bytes `init` writes, in order: the power-up settings, the
      memory-mode opcode and the mode byte, the panel settings. */
  function InitBytes(pageMode: bool): seq<bv8> {
    PowerUpBytes() + [0x20, ModeByte(pageMode)] + PanelBytes()
  }

  function PowerUpBytes(): seq<bv8> {
    [0xAE, 0xD5, 0x80, 0xA8, 0x3F] + [0xD3, 0x00, 0x40 | 0x00, 0x8D, 0x14]
  }

  function PanelBytes(): seq<bv8> {
    [0xA0 | 0x01, 0xC8, 0xDA, 0x12] + [0x81, 0xCF, 0xD9, 0xF1, 0xDB, 0x40] + [0xA4, 0xA6, 0xAF]
  }

  /** What `init` configures, as controller commands: display off, clock
      ratio 0x80, multiplex 63, offset 0, start line 0, charge pump on; then
      the addressing mode; then flipped segments and COM scan, COM pins,
      contrast, pre-charge, VCOMH level, resume from all-on, normal display,
      display on. */
  function InitProgram(pageMode: bool): seq<Command> {
    PowerUpProgram() + [SetMemoryMode(ModeByte(pageMode))] + PanelProgram()
  }

  function PowerUpProgram(): seq<Command> {
    [DisplayOff, SetClockDiv(0x80), SetMultiplex(0x3F)]
    + [SetDisplayOffset(0x00), SetStartLine(0x00), ChargePump(0x14)]
  }

  function PanelProgram(): seq<Command> {
    [SegmentRemap(true), ComScan(true), SetComPins(0x12)]
    + [SetContrast(0xCF), SetPrecharge(0xF1), SetVcomDetect(0x40)]
    + [DisplayAllOnResume, NormalDisplay, DisplayOn]
  }

  /** `init`: 25 single-byte writes on the command register, starting with
      display off and ending with display on; only the memory-mode argument
      depends on the addressing mode. */
  function Init(pageMode: bool): (t: seq<Event>)
    ensures |t| == 25
    ensures forall k | 0 <= k < |t| :: t[k].WriteRegister? && t[k].register == CommandRegister
    ensures t[0].value == 0xAE && t[24].value == 0xAF
    ensures t[11].value == if pageMode then 0x02 else 0x00
  {
    CommandWrites(InitBytes(pageMode))
  }

  /** The two addressing modes initialise identically except at position 11. */
  lemma InitModesAgreeElsewhere()
    ensures forall k | 0 <= k < 25 && k != 11 :: Init(true)[k] == Init(false)[k]
  {
    forall k | 0 <= k < 25 && k != 11
      ensures InitBytes(true)[k] == InitBytes(false)[k]
    {
      if k < 10 {
        assert InitBytes(true)[k] == PowerUpBytes()[k] == InitBytes(false)[k];
      } else if k > 11 {
        assert InitBytes(true)[k] == PanelBytes()[k - 12] == InitBytes(false)[k];
      }
    }
  }

  lemma PowerUpEncodes()
    ensures EncodeAll(PowerUpProgram()) == PowerUpBytes()
  {
    var a := [DisplayOff, SetClockDiv(0x80), SetMultiplex(0x3F)];
    var b := [SetDisplayOffset(0x00), SetStartLine(0x00), ChargePump(0x14)];
    EncodeAllAppend(a, b);
    assert EncodeAll(a) == [0xAE, 0xD5, 0x80, 0xA8, 0x3F];
    assert EncodeAll(b) == [0xD3, 0x00, 0x40, 0x8D, 0x14];
  }

  lemma PanelEncodes()
    ensures EncodeAll(PanelProgram()) == PanelBytes()
  {
    var a := [SegmentRemap(true), ComScan(true), SetComPins(0x12)];
    var b := [SetContrast(0xCF), SetPrecharge(0xF1), SetVcomDetect(0x40)];
    var c := [DisplayAllOnResume, NormalDisplay, DisplayOn];
    EncodeAllAppend(a, b);
    EncodeAllAppend(a + b, c);
    assert EncodeAll(a) == [0xA1, 0xC8, 0xDA, 0x12];
    assert EncodeAll(b) == [0x81, 0xCF, 0xD9, 0xF1, 0xDB, 0x40];
    assert EncodeAll(c) == [0xA4, 0xA6, 0xAF];
  }

  lemma InitWellFormed(pageMode: bool)
    ensures AllWellFormed(InitProgram(pageMode))
  {
    var prog := InitProgram(pageMode);
    forall k | 0 <= k < |prog|
      ensures WellFormed(prog[k])
    {
      if k < 6 {
        assert prog[k] == PowerUpProgram()[k];
      } else if k > 6 {
        assert prog[k] == PanelProgram()[k - 7];
      }
    }
  }

  /** The init bytes are the encoding of the init program. */
  lemma InitEncodes(pageMode: bool)
    ensures AllWellFormed(InitProgram(pageMode))
    ensures EncodeAll(InitProgram(pageMode)) == InitBytes(pageMode)
  {
    var mode := [SetMemoryMode(ModeByte(pageMode))];
    InitWellFormed(pageMode);
    PowerUpEncodes();
    PanelEncodes();
    EncodeAllAppend(PowerUpProgram(), mode);
    EncodeAllAppend(PowerUpProgram() + mode, PanelProgram());
    assert EncodeAll(mode) == [0x20, ModeByte(pageMode)];
  }

  /** The init trace carries no display data, and its command stream decodes
      to exactly the configuration program. */
  lemma InitDecodes(pageMode: bool)
    ensures DataBytes(Init(pageMode)) == []
    ensures Decode(CommandBytes(Init(pageMode))) == Some(InitProgram(pageMode))
  {
    CommandWritesStreams(InitBytes(pageMode));
    InitEncodes(pageMode);
    DecodeEncodeAll(InitProgram(pageMode));
  }

  /** `writeBytes(localAddress, buffer, offset, size)`: a frame of `size + 1`
      bytes, the address narrowed to a byte followed by the copied slice.
      Java raises an exception for a negative size or an out-of-range
      slice; that is the None case. */
  function WriteBytes(localAddress: int, buffer: seq<bv8>, offset: int, size: int): (r: Option<seq<bv8>>)
    ensures r.Some? <==> 0 <= offset && 0 <= size && offset + size <= |buffer|
    ensures r.Some? ==>
      && |r.value| == size + 1
      && r.value[0] == (localAddress % 256) as bv8
      && forall k | 1 <= k <= size :: r.value[k] == buffer[offset + k - 1]
  {
    if 0 <= offset && 0 <= size && offset + size <= |buffer| then
      Some([(localAddress % 256) as bv8] + buffer[offset..offset + size])
    else
      None
  }

  /** Bytes per data frame in horizontal mode, and the number of frames. */
  const ChunkSize: int := 16
  const ChunkCount: int := 64

  /** The loop bound `(DisplayWidth * DisplayHeight / 8) / 16`: the frames
      tile the framebuffer exactly. */
  lemma ChunksTileBuffer()
    ensures ChunkCount == (DisplayWidth * DisplayHeight / 8) / ChunkSize
    ensures ChunkCount * ChunkSize == MaxIndex
  {
  }

  /** The `i`-th run of `ChunkSize` framebuffer bytes. */
  function Chunk(buf: Buffer, i: nat): seq<bv8>
    requires i < ChunkCount
  {
    buf[16 * i..16 * (i + 1)]
  }

  /** The data loop of horizontal `update`: frame `i` is `writeBytes` of
      the data control byte and the `i`-th run of 16 framebuffer bytes. */
  function HorizontalChunks(buf: Buffer): (t: seq<Event>)
    ensures |t| == ChunkCount
  {
    seq(64, i requires 0 <= i < 64 => WriteRaw(WriteBytes(0x40, buf, 16 * i, ChunkSize).value))
  }

  /** Commands opening a horizontal refresh: columns 0..127, pages 0..7. */
  function HorizontalPreamble(): seq<bv8> {
    [0x21, 0x00, 0x7F, 0x22, 0x00, 0x07]
  }

  /** The column end byte is `(byte) (DisplayWidth - 1)`. */
  lemma ColumnEndByte()
    ensures (DisplayWidth - 1) as bv8 == 0x7F
  {
  }

  /** `update` in horizontal addressing mode. */
  function UpdateHorizontal(buf: Buffer): (t: seq<Event>)
    ensures |t| == 6 + ChunkCount
    ensures forall k | 0 <= k < |t| :: t[k].WriteRegister? <==> k < 6
  {
    CommandWrites(HorizontalPreamble()) + HorizontalChunks(buf)
  }

  /** Frame `i` is the data control byte followed by chunk `i`. */
  lemma FrameIsChunk(buf: Buffer, i: nat)
    requires i < ChunkCount
    ensures WriteBytes(0x40, buf, 16 * i, ChunkSize).value == [DataRegister] + Chunk(buf, i)
  {
    var frame := WriteBytes(0x40, buf, 16 * i, ChunkSize).value;
    assert forall k | 1 <= k < |frame| :: frame[k] == Chunk(buf, i)[k - 1];
  }

  lemma HorizontalChunksShape(buf: Buffer)
    ensures forall k | 0 <= k < ChunkCount :: HorizontalChunks(buf)[k] == WriteRaw([DataRegister] + Chunk(buf, k))
  {
    forall k | 0 <= k < ChunkCount
      ensures HorizontalChunks(buf)[k] == WriteRaw([DataRegister] + Chunk(buf, k))
    {
      FrameIsChunk(buf, k);
    }
  }

  /** The frames from `i` on carry the framebuffer from byte `16 * i` on,
      all on the data register. */
  lemma {:induction false} HorizontalChunksStream(buf: Buffer, i: nat, reg: bv8)
    requires i <= ChunkCount
    ensures StreamBytes(HorizontalChunks(buf)[i..], reg) == if reg == DataRegister then buf[16 * i..] else []
    decreases ChunkCount - i
  {
    if i < ChunkCount {
      var t := HorizontalChunks(buf)[i..];
      HorizontalChunksStream(buf, i + 1, reg);
      ChunkPayload(buf, i, reg);
      assert t[1..] == HorizontalChunks(buf)[i + 1..];
      assert StreamBytes(t, reg) == Payload(t[0], reg) + StreamBytes(t[1..], reg);
      SliceSplit(buf, 16 * i, 16 * (i + 1));
    }
  }

  /** Frame `i` carries chunk `i` on the data stream and nothing on the
      command stream. */
  lemma ChunkPayload(buf: Buffer, i: nat, reg: bv8)
    requires i < ChunkCount
    ensures Payload(HorizontalChunks(buf)[i], reg) == if reg == DataRegister then Chunk(buf, i) else []
  {
    FrameIsChunk(buf, i);
    assert HorizontalChunks(buf)[i] == WriteRaw([DataRegister] + Chunk(buf, i));
    assert ([DataRegister] + Chunk(buf, i))[1..] == Chunk(buf, i);
  }

  lemma HorizontalChunksStreams(buf: Buffer)
    ensures CommandBytes(HorizontalChunks(buf)) == []
    ensures DataBytes(HorizontalChunks(buf)) == buf
  {
    assert HorizontalChunks(buf)[0..] == HorizontalChunks(buf);
    assert buf[16 * 0..] == buf;
    HorizontalChunksStream(buf, 0, CommandRegister);
    HorizontalChunksStream(buf, 0, DataRegister);
  }

  /** Horizontal `update`: six command writes (column range 0..127, page
      range 0..7), then 64 raw frames, frame `j` being the data control
      byte and the `j`-th run of 16 framebuffer bytes. */
  lemma UpdateHorizontalShape(buf: Buffer)
    ensures var t := UpdateHorizontal(buf);
      && |t| == 6 + ChunkCount
      && t[..6] == CommandWrites(HorizontalPreamble())
      && forall j | 0 <= j < ChunkCount :: t[6 + j] == WriteRaw([DataRegister] + Chunk(buf, j))
  {
    HorizontalChunksShape(buf);
    var t := UpdateHorizontal(buf);
    assert t[..6] == CommandWrites(HorizontalPreamble());
  }

  /** The preamble is the encoding of the two range commands. */
  lemma PreambleDecodes()
    ensures Decode(HorizontalPreamble()) == Some([SetColumnAddress(0, 127), SetPageAddress(0, 7)])
  {
    var cs := [SetColumnAddress(0, 127), SetPageAddress(0, 7)];
    assert AllWellFormed(cs);
    assert EncodeAll(cs) == HorizontalPreamble() by {
      assert EncodeAll(cs[1..]) == [0x22, 0x00, 0x07];
    }
    DecodeEncodeAll(cs);
  }

  /** Horizontal `update` sends the framebuffer to display RAM in order, and
      its command stream is exactly the column and page range commands. */
  lemma UpdateHorizontalStreams(buf: Buffer)
    ensures DataBytes(UpdateHorizontal(buf)) == buf
    ensures Decode(CommandBytes(UpdateHorizontal(buf)))
         == Some([SetColumnAddress(0, 127), SetPageAddress(0, 7)])
  {
    var pre, chunks := CommandWrites(HorizontalPreamble()), HorizontalChunks(buf);
    assert UpdateHorizontal(buf) == pre + chunks;
    HorizontalChunksStreams(buf);
    CommandWritesStreams(HorizontalPreamble());
    StreamsAppend(pre, chunks);
    assert CommandBytes(pre + chunks) == HorizontalPreamble();
    PreambleDecodes();
  }

  /** Page number `p` as a byte, by table: keeps integer-to-byte
      conversions out of the traces (`PageSelectByte` relates the two). */
  function PageByte(p: nat): bv8
    requires p < 8
  {
    [0x00, 0x01, 0x02, 0x03, 0x04, 0x05, 0x06, 0x07][p]
  }

  /** Commands opening page `p` in page mode: select the page, then column
      low nibble 2 and high nibble 0. */
  function PageHeader(p: nat): seq<bv8>
    requires p < 8
  {
    [0xB0 | PageByte(p), 0x02, 0x10]
  }

  /** The data writes of one page: framebuffer bytes `base` up to
      `base + DisplayWidth`, one register write each, in column order; the
      page loop passes `base = DisplayWidth * page`. */
  function PageData(buf: Buffer, base: nat): (t: seq<Event>)
    requires base + DisplayWidth <= MaxIndex
    ensures |t| == DisplayWidth
  {
    seq(128, k requires 0 <= k < 128 => WriteRegister(DataRegister, buf[base + k]))
  }

  function PageBlock(buf: Buffer, p: nat): (t: seq<Event>)
    requires p < 8
    ensures |t| == PageBlockLength
  {
    CommandWrites(PageHeader(p)) + PageData(buf, 128 * p)
  }

  /** The page loop of `update`, from page `p` on. */
  function PageBlocks(buf: Buffer, p: nat): seq<Event>
    requires p <= 8
    decreases 8 - p
  {
    if p == 8 then [] else PageBlock(buf, p) + PageBlocks(buf, p + 1)
  }

  /** `update` in page addressing mode. */
  function UpdatePage(buf: Buffer): (t: seq<Event>)
    ensures |t| == 8 * PageBlockLength
  {
    PageBlocksLength(buf, 0);
    PageBlocks(buf, 0)
  }

  /** `update`: the protocol chosen at construction. Whatever the buffer
      holds, it takes 1048 transactions in page mode and 70 otherwise, puts
      the whole buffer on the data stream in order, and sends the mode's
      addressing commands. */
  function Update(buf: Buffer, pageMode: bool): (t: seq<Event>)
    ensures |t| == if pageMode then 1048 else 70
    ensures DataBytes(t) == buf
    ensures Decode(CommandBytes(t))
         == Some(if pageMode then PageProgram(0) else [SetColumnAddress(0, 127), SetPageAddress(0, 7)])
  {
    UpdatePageStreams(buf);
    UpdateHorizontalStreams(buf);
    if pageMode then UpdatePage(buf) else UpdateHorizontal(buf)
  }

  /** Single writes to the data register carry their values, in order, on
      the data stream and nothing on the command stream. */
  lemma {:induction false} DataWritesStream(t: seq<Event>, bytes: seq<bv8>, reg: bv8)
    requires |t| == |bytes|
    requires forall k | 0 <= k < |t| :: t[k] == WriteRegister(DataRegister, bytes[k])
    ensures StreamBytes(t, reg) == if reg == DataRegister then bytes else []
    decreases |t|
  {
    if |t| > 0 {
      DataWritesStream(t[1..], bytes[1..], reg);
      assert Payload(t[0], reg) == if reg == DataRegister then [bytes[0]] else [];
      assert bytes == [bytes[0]] + bytes[1..];
    }
  }

  /** The page's writes from column `i` on carry the page's bytes from
      column `i` on, all on the data register. */
  lemma PageDataStream(buf: Buffer, base: nat, i: nat, reg: bv8)
    requires base + DisplayWidth <= MaxIndex && i <= DisplayWidth
    ensures StreamBytes(PageData(buf, base)[i..], reg)
         == if reg == DataRegister then buf[base + i..base + DisplayWidth] else []
  {
    DataWritesStream(PageData(buf, base)[i..], buf[base + i..base + DisplayWidth], reg);
  }

  lemma PageDataStreams(buf: Buffer, base: nat)
    requires base + DisplayWidth <= MaxIndex
    ensures CommandBytes(PageData(buf, base)) == []
    ensures DataBytes(PageData(buf, base)) == buf[base..base + DisplayWidth]
  {
    assert PageData(buf, base)[0..] == PageData(buf, base);
    PageDataStream(buf, base, 0, CommandRegister);
    PageDataStream(buf, base, 0, DataRegister);
  }

  /** Length of one page block: three commands and 128 data writes, 131
      transactions in all (`PageBlockLengthValue` gives the solver the
      number). */
  const PageBlockLength: int := 3 + DisplayWidth

  /** Page `p` of a page-mode refresh: the commands 0xB0 + p, 0x02, 0x10,
      then the page's 128 bytes in column order as single writes on the
      data register. */
  lemma PageBlockShape(buf: Buffer, p: nat)
    requires p < 8
    ensures var t := PageBlock(buf, p);
      && |t| == PageBlockLength
      && t[0] == WriteRegister(CommandRegister, 0xB0 | PageByte(p))
      && t[1] == WriteRegister(CommandRegister, 0x02)
      && t[2] == WriteRegister(CommandRegister, 0x10)
      && forall j | 3 <= j < PageBlockLength :: t[j] == WriteRegister(DataRegister, buf[128 * p + j - 3])
  {
    var base := 128 * p;
    var header, data := CommandWrites(PageHeader(p)), PageData(buf, base);
    var t := PageBlock(buf, p);
    assert t == header + data;
    assert t[0] == header[0] && t[1] == header[1] && t[2] == header[2];
    forall j | 3 <= j < PageBlockLength
      ensures t[j] == WriteRegister(DataRegister, buf[base + j - 3])
    {
      assert t[j] == data[j - 3];
    }
  }

  lemma PageBlockStreams(buf: Buffer, p: nat)
    requires p < 8
    ensures CommandBytes(PageBlock(buf, p)) == PageHeader(p)
    ensures DataBytes(PageBlock(buf, p)) == buf[128 * p..128 * (p + 1)]
  {
    PageDataStreams(buf, 128 * p);
    CommandWritesStreams(PageHeader(p));
    StreamsAppend(CommandWrites(PageHeader(p)), PageData(buf, 128 * p));
  }

  /** The command program of the page loop from page `p` on. */
  function PageProgram(p: nat): seq<Command>
    requires p <= 8
    decreases 8 - p
  {
    if p == 8 then []
    else [SetPageStart(PageByte(p)), SetLowColumn(0x02), SetHighColumn(0x00)] + PageProgram(p + 1)
  }

  /** The byte `(byte) (0xB0 + page)` is the page-start opcode with the
      page number in its low bits. */
  lemma PageSelectByte(p: nat)
    requires p < 8
    ensures PageByte(p) as int == p && PageByte(p) < 0x08
    ensures (0xB0 + p) as bv8 == 0xB0 | PageByte(p)
  {
  }

  lemma PageHeaderEncodes(p: nat)
    requires p < 8
    ensures AllWellFormed([SetPageStart(PageByte(p)), SetLowColumn(0x02), SetHighColumn(0x00)])
    ensures EncodeAll([SetPageStart(PageByte(p)), SetLowColumn(0x02), SetHighColumn(0x00)]) == PageHeader(p)
  {
    var cs := [SetPageStart(PageByte(p)), SetLowColumn(0x02), SetHighColumn(0x00)];
    assert EncodeAll(cs[2..]) == [0x10];
    assert EncodeAll(cs[1..]) == [0x02, 0x10];
  }

  /** Offsets into a page-mode trace are written with the literal block
      length 131, which keeps the arithmetic linear for the solver. */
  lemma PageBlockLengthValue()
    ensures PageBlockLength == 131
  {
  }

  lemma {:induction false} PageBlocksLength(buf: Buffer, p: nat)
    requires p <= 8
    ensures |PageBlocks(buf, p)| == 131 * (8 - p)
    decreases 8 - p
  {
    if p < 8 {
      PageBlocksLength(buf, p + 1);
    }
  }

  lemma {:induction false} PageProgramWellFormed(p: nat)
    requires p <= 8
    ensures AllWellFormed(PageProgram(p))
    decreases 8 - p
  {
    if p < 8 {
      PageHeaderEncodes(p);
      PageProgramWellFormed(p + 1);
    }
  }

  lemma {:induction false} PageBlocksCommands(buf: Buffer, p: nat)
    requires p <= 8
    ensures CommandBytes(PageBlocks(buf, p)) == EncodeAll(PageProgram(p))
    decreases 8 - p
  {
    if p < 8 {
      var cmds := [SetPageStart(PageByte(p)), SetLowColumn(0x02), SetHighColumn(0x00)];
      PageBlockStreams(buf, p);
      PageBlocksCommands(buf, p + 1);
      StreamsAppend(PageBlock(buf, p), PageBlocks(buf, p + 1));
      PageHeaderEncodes(p);
      EncodeAllAppend(cmds, PageProgram(p + 1));
    }
  }

  lemma SliceSplit<T>(s: seq<T>, lo: nat, mid: nat)
    requires lo <= mid <= |s|
    ensures s[lo..] == s[lo..mid] + s[mid..]
  {
  }

  lemma {:induction false} PageBlocksData(buf: Buffer, p: nat)
    requires p <= 8
    ensures DataBytes(PageBlocks(buf, p)) == buf[128 * p..]
    decreases 8 - p
  {
    if p < 8 {
      PageBlockStreams(buf, p);
      PageBlocksData(buf, p + 1);
      StreamsAppend(PageBlock(buf, p), PageBlocks(buf, p + 1));
      var lo, mid := 128 * p, 128 * (p + 1);
      assert mid == lo + DisplayWidth;
      SliceSplit(buf, lo, mid);
    }
  }

  /** Event `j` of page `q`'s block sits at position `131 * (q - p) + j`
      of the loop started at page `p`. */
  lemma PageBlocksHead(buf: Buffer, p: nat, j: nat)
    requires p < 8 && j < PageBlockLength
    ensures j < |PageBlocks(buf, p)| && PageBlocks(buf, p)[j] == PageBlock(buf, p)[j]
  {
  }

  lemma PageBlocksTail(buf: Buffer, p: nat, i: nat)
    requires p < 8 && 131 <= i < 131 * (8 - p)
    ensures i < |PageBlocks(buf, p)| && i - 131 < |PageBlocks(buf, p + 1)|
    ensures PageBlocks(buf, p)[i] == PageBlocks(buf, p + 1)[i - 131]
  {
    PageBlocksLength(buf, p);
    PageBlockLengthValue();
  }

  lemma {:induction false} PageBlocksAt(buf: Buffer, p: nat, q: nat, j: nat, i: nat)
    requires p <= q < 8 && j < PageBlockLength && i == 131 * (q - p) + j
    ensures i < |PageBlocks(buf, p)|
    ensures PageBlocks(buf, p)[i] == PageBlock(buf, q)[j]
    decreases q - p
  {
    if q == p {
      PageBlocksHead(buf, p, j);
    } else {
      PageBlocksAt(buf, p + 1, q, j, i - 131);
      PageBlocksTail(buf, p, i);
    }
  }

  /** Page-mode `update` is 1048 transactions: the blocks of pages 0..7 in
      order, block `p` starting at transaction 131 * p. */
  lemma UpdatePageShape(buf: Buffer)
    ensures |UpdatePage(buf)| == 8 * PageBlockLength == 1048
    ensures forall p, j | 0 <= p < 8 && 0 <= j < PageBlockLength ::
      UpdatePage(buf)[131 * p + j] == PageBlock(buf, p)[j]
  {
    var t := UpdatePage(buf);
    assert t == PageBlocks(buf, 0);
    PageBlocksLength(buf, 0);
    forall p, j | 0 <= p < 8 && 0 <= j < PageBlockLength
      ensures t[131 * p + j] == PageBlock(buf, p)[j]
    {
      PageBlocksAt(buf, 0, p, j, 131 * p + j);
    }
  }

  /** Page-mode `update` sends the framebuffer to display RAM in order, and
      its command stream decodes to page select, column 2, for each page. */
  lemma UpdatePageStreams(buf: Buffer)
    ensures DataBytes(UpdatePage(buf)) == buf
    ensures Decode(CommandBytes(UpdatePage(buf))) == Some(PageProgram(0))
  {
    PageBlocksCommands(buf, 0);
    PageBlocksData(buf, 0);
    PageProgramWellFormed(0);
    DecodeEncodeAll(PageProgram(0));
  }
}

=== FILE: text.dfy ===
/** Cursor and bounds logic of `drawString` and `drawStringCentered`. The
    font is reduced to its four metrics, and drawing a glyph to an emitted
    request: glyph shapes belong to the font, not to the display.

    A Java `String` is a sequence of UTF-16 code units: `toCharArray()`
    and `length()` both count units, so a character outside the Basic
    Multilingual Plane is two steps of the loop and two glyph requests,
    one per surrogate. The text here is such a unit sequence. */
module Text {
  import opened Panel

  /** A Java `char`: an unsigned 16-bit value. */
  newtype CodeUnit = u: int | 0 <= u < 0x1_0000

  /** A Java `String`, as the driver sees it. */
  type Text = seq<CodeUnit>

  const LineFeed: CodeUnit := 0x000A

  /** The UTF-16 form of a string of Unicode scalar values: one unit below
      U+10000, a high and a low surrogate above. */
  function Utf16(s: string): (u: Text)
    ensures |s| <= |u| <= 2 * |s|
    ensures (forall k | 0 <= k < |s| :: (s[k] as int) < 0x1_0000) ==> |u| == |s|
  {
    if |s| == 0 then []
    else
      var v := s[0] as int;
      var head: Text :=
        if v < 0x1_0000 then [v as CodeUnit]
        else [(0xD800 + (v - 0x1_0000) / 0x400) as CodeUnit, (0xDC00 + (v - 0x1_0000) % 0x400) as CodeUnit];
      head + Utf16(s[1..])
  }

  /** `font.getWidth()`, `getHeight()`, `getOuterWidth()`, `getOuterHeight()`:
      the glyph cell and the advance between cells. */
  datatype FontMetrics = FontMetrics(width: int, height: int, outerWidth: int, outerHeight: int)

  /** One `drawChar(c, font, x, y, on)` the display asks the font to do. */
  datatype Glyph = Glyph(c: CodeUnit, x: int, y: int, on: bool)

  datatype Cursor = Cursor(x: int, y: int)

  /** The per-glyph bounds check: the whole cell lies strictly inside the
      logical frame (the comparisons with width and height are strict). */
  predicate CellFits(rot: Rotation, fm: FontMetrics, px: int, py: int) {
    px >= 0 && px + fm.width < Width(rot) && py >= 0 && py + fm.height < Height(rot)
  }

  /** Cursor after one character: a newline returns to the start column `x0`
      and moves down one line; anything else advances one cell, whether or
      not it was drawn. */
  function Step(fm: FontMetrics, x0: int, c: CodeUnit, cur: Cursor): Cursor {
    if c == LineFeed then Cursor(x0, cur.y + fm.outerHeight)
    else Cursor(cur.x + fm.outerWidth, cur.y)
  }

  /** The glyph request (if any) one character produces at the cursor. */
  function Emit(rot: Rotation, fm: FontMetrics, c: CodeUnit, cur: Cursor, on: bool): seq<Glyph> {
    if c != LineFeed && CellFits(rot, fm, cur.x, cur.y) then [Glyph(c, cur.x, cur.y, on)] else []
  }

  /** Cursor after a whole string. */
  function Advance(fm: FontMetrics, x0: int, s: Text, cur: Cursor): Cursor
    decreases |s|
  {
    if |s| == 0 then cur else Advance(fm, x0, s[1..], Step(fm, x0, s[0], cur))
  }

  /** The loop of `drawString` from cursor `cur`, with line start `x0`. */
  function DrawFrom(rot: Rotation, fm: FontMetrics, s: Text, x0: int, cur: Cursor, on: bool): (r: seq<Glyph>)
    ensures |r| <= |s|
    ensures forall k | 0 <= k < |r| ::
      r[k].c != LineFeed && r[k].on == on && CellFits(rot, fm, r[k].x, r[k].y)
    decreases |s|
  {
    if |s| == 0 then []
    else Emit(rot, fm, s[0], cur, on) + DrawFrom(rot, fm, s[1..], x0, Step(fm, x0, s[0], cur), on)
  }

  /** `drawString(string, font, x, y, on)`: only glyphs whose cell fits are
      requested, never for a newline, at most one per character. */
  function DrawString(rot: Rotation, fm: FontMetrics, s: Text, x: int, y: int, on: bool): (r: seq<Glyph>)
    ensures |r| <= |s|
    ensures forall k | 0 <= k < |r| ::
      r[k].c != LineFeed && r[k].on == on && CellFits(rot, fm, r[k].x, r[k].y)
  {
    DrawFrom(rot, fm, s, x, Cursor(x, y), on)
  }

  /** Number of line breaks in `p`. */
  function Lines(p: Text): nat {
    if |p| == 0 then 0 else Lines(p[..|p| - 1]) + (if p[|p| - 1] == LineFeed then 1 else 0)
  }

  /** Number of characters after the last line break of `p`. */
  function Column(p: Text): nat {
    if |p| == 0 then 0 else if p[|p| - 1] == LineFeed then 0 else Column(p[..|p| - 1]) + 1
  }

  /** Where the glyph for the character after prefix `p` is placed: line
      `Lines(p)`, cell `Column(p)` of that line. */
  function LayoutCursor(fm: FontMetrics, p: Text, x: int, y: int): Cursor {
    Cursor(x + Column(p) * fm.outerWidth, y + Lines(p) * fm.outerHeight)
  }

  /** Reference layout, character by character from the end: character `i`
      is drawn at the closed-form position of prefix `s[..i]` when it is not
      a newline and its cell fits. */
  function Layout(rot: Rotation, fm: FontMetrics, s: Text, x: int, y: int, on: bool): seq<Glyph> {
    if |s| == 0 then []
    else
      var p := s[..|s| - 1];
      Layout(rot, fm, p, x, y, on) + Emit(rot, fm, s[|s| - 1], LayoutCursor(fm, p, x, y), on)
  }

  /** Processing `p` then `c` is processing `p + [c]`. */
  lemma {:induction false} DrawFromSnoc(rot: Rotation, fm: FontMetrics, p: Text, c: CodeUnit, x0: int, cur: Cursor, on: bool)
    ensures Advance(fm, x0, p + [c], cur) == Step(fm, x0, c, Advance(fm, x0, p, cur))
    ensures DrawFrom(rot, fm, p + [c], x0, cur, on)
         == DrawFrom(rot, fm, p, x0, cur, on) + Emit(rot, fm, c, Advance(fm, x0, p, cur), on)
    decreases |p|
  {
    if |p| == 0 {
      assert p + [c] == [c];
    } else {
      assert (p + [c])[1..] == p[1..] + [c];
      DrawFromSnoc(rot, fm, p[1..], c, x0, Step(fm, x0, p[0], cur), on);
    }
  }

  /** The cursor after any prefix is the closed-form layout position: the
      row counts line breaks, the column counts characters since the last
      one. */
  lemma {:induction false} AdvanceIsLayout(fm: FontMetrics, p: Text, x: int, y: int)
    ensures Advance(fm, x, p, Cursor(x, y)) == LayoutCursor(fm, p, x, y)
    decreases |p|
  {
    if |p| > 0 {
      var q, c := p[..|p| - 1], p[|p| - 1];
      assert p == q + [c];
      DrawFromSnoc(Deg0, fm, q, c, x, Cursor(x, y), false);
      AdvanceIsLayout(fm, q, x, y);
      if c != LineFeed {
        assert (Column(q) + 1) * fm.outerWidth == Column(q) * fm.outerWidth + fm.outerWidth;
      } else {
        assert (Lines(q) + 1) * fm.outerHeight == Lines(q) * fm.outerHeight + fm.outerHeight;
      }
    }
  }

  /** `drawString` requests exactly the reference layout. */
  lemma {:induction false} DrawStringIsLayout(rot: Rotation, fm: FontMetrics, s: Text, x: int, y: int, on: bool)
    ensures DrawString(rot, fm, s, x, y, on) == Layout(rot, fm, s, x, y, on)
    decreases |s|
  {
    if |s| > 0 {
      var p, c := s[..|s| - 1], s[|s| - 1];
      assert s == p + [c];
      DrawFromSnoc(rot, fm, p, c, x, Cursor(x, y), on);
      AdvanceIsLayout(fm, p, x, y);
      DrawStringIsLayout(rot, fm, p, x, y, on);
    }
  }

  /** Start column of `drawStringCentered`: `(getWidth() - len * outerWidth) / 2`
      with Java's truncating division. The left and right margins differ
      by at most one pixel; when the text is wider than the frame the
      truncation rounds toward zero, so the right margin is the smaller. */
  function CenteredX(rot: Rotation, fm: FontMetrics, len: nat): (x: int)
    ensures var slack := Width(rot) - len * fm.outerWidth;
      && (slack >= 0 ==> 0 <= (slack - x) - x <= 1)
      && (slack < 0 ==> -1 <= (slack - x) - x <= 0)
  {
    JDiv(Width(rot) - len * fm.outerWidth, 2)
  }

  /** `drawStringCentered(string, font, y, on)`: the text is laid out from
      the centred column, its width being `length()` code units of
      `outerWidth` each. */
  function DrawStringCentered(rot: Rotation, fm: FontMetrics, s: Text, y: int, on: bool): (r: seq<Glyph>)
    ensures r == Layout(rot, fm, s, CenteredX(rot, fm, |s|), y, on)
    ensures |r| <= |s|
  {
    DrawStringIsLayout(rot, fm, s, CenteredX(rot, fm, |s|), y, on);
    DrawString(rot, fm, s, CenteredX(rot, fm, |s|), y, on)
  }

  /** U+1F600 is a surrogate pair in UTF-16. */
  lemma EmojiIsSurrogatePair()
    ensures Utf16("\U{1F600}") == [0xD83D, 0xDE00]
  {
    var e := "\U{1F600}";
    assert |e| == 1 && e[0] as int == 0x1F600;
    var v := e[0] as int - 0x1_0000;
    assert v / 0x400 == 0x3D && v % 0x400 == 0x200;
    assert Utf16(e) == [0xD83D, 0xDE00] + Utf16(e[1..]);
  }

  /** A character outside the Basic Multilingual Plane counts as two units:
      U+1F600 is centred as a two-cell string and yields one glyph request
      per surrogate. */
  lemma SurrogatePairCentred()
    ensures var fm := FontMetrics(5, 8, 6, 9);
      && CenteredX(Deg0, fm, |Utf16("\U{1F600}")|) == 58
      && DrawStringCentered(Deg0, fm, Utf16("\U{1F600}"), 0, true)
         == [Glyph(0xD83D, 58, 0, true), Glyph(0xDE00, 64, 0, true)]
  {
    EmojiIsSurrogatePair();
    var u: Text := [0xD83D, 0xDE00];
    var fm := FontMetrics(5, 8, 6, 9);
    assert CenteredX(Deg0, fm, 2) == 58;
    assert u[1..] == [0xDE00];
    assert DrawFrom(Deg0, fm, u[1..], 58, Cursor(64, 0), true) == [Glyph(0xDE00, 64, 0, true)];
  }

  predicate NoNewline(s: Text) {
    forall k | 0 <= k < |s| :: s[k] != LineFeed
  }

  lemma {:induction false} SingleLineLayout(s: Text)
    requires NoNewline(s)
    ensures Lines(s) == 0 && Column(s) == |s|
    decreases |s|
  {
    if |s| > 0 {
      SingleLineLayout(s[..|s| - 1]);
    }
  }

  lemma {:induction false} FittingLineLayout(rot: Rotation, fm: FontMetrics, s: Text, x: int, y: int, on: bool)
    requires NoNewline(s)
    requires forall k | 0 <= k < |s| :: CellFits(rot, fm, x + k * fm.outerWidth, y)
    ensures var r := Layout(rot, fm, s, x, y, on);
      |r| == |s| && forall k | 0 <= k < |s| :: r[k] == Glyph(s[k], x + k * fm.outerWidth, y, on)
    decreases |s|
  {
    if |s| > 0 {
      var p, n := s[..|s| - 1], |s| - 1;
      assert forall k | 0 <= k < |p| :: p[k] == s[k];
      FittingLineLayout(rot, fm, p, x, y, on);
      SingleLineLayout(p);
      var cur := LayoutCursor(fm, p, x, y);
      assert cur == Cursor(x + n * fm.outerWidth, y);
      assert CellFits(rot, fm, x + n * fm.outerWidth, y);
      assert Emit(rot, fm, s[n], cur, on) == [Glyph(s[n], x + n * fm.outerWidth, y, on)];
    }
  }

  /** A single line whose every cell fits is drawn in full: glyph k is
      character k, on row y, k cells right of the start. */
  lemma FittingLineDrawnInFull(rot: Rotation, fm: FontMetrics, s: Text, x: int, y: int, on: bool)
    requires NoNewline(s)
    requires forall k | 0 <= k < |s| :: CellFits(rot, fm, x + k * fm.outerWidth, y)
    ensures var r := DrawString(rot, fm, s, x, y, on);
      |r| == |s| && forall k | 0 <= k < |s| :: r[k] == Glyph(s[k], x + k * fm.outerWidth, y, on)
  {
    DrawStringIsLayout(rot, fm, s, x, y, on);
    FittingLineLayout(rot, fm, s, x, y, on);
  }

  /** The centred single-line case: every requested glyph sits on row y, and
      the run starts at the centred column. */
  lemma CenteredLineOnOneRow(rot: Rotation, fm: FontMetrics, s: Text, y: int, on: bool)
    requires NoNewline(s)
    ensures forall k | 0 <= k < |DrawStringCentered(rot, fm, s, y, on)| ::
      DrawStringCentered(rot, fm, s, y, on)[k].y == y
  {
    var x := CenteredX(rot, fm, |s|);
    RowsStayOnLine(rot, fm, s, x, Cursor(x, y), on);
  }

  /** Without line breaks the cursor never leaves its row. */
  lemma {:induction false} RowsStayOnLine(rot: Rotation, fm: FontMetrics, s: Text, x0: int, cur: Cursor, on: bool)
    requires NoNewline(s)
    ensures forall k | 0 <= k < |DrawFrom(rot, fm, s, x0, cur, on)| :: DrawFrom(rot, fm, s, x0, cur, on)[k].y == cur.y
    decreases |s|
  {
    if |s| > 0 {
      RowsStayOnLine(rot, fm, s[1..], x0, Step(fm, x0, s[0], cur), on);
    }
  }
}

=== FILE: wrappers.dfy ===
/** Optional values, for operations that can fail. */
module Wrappers {

  datatype Option<+T> = None | Some(value: T)
}
